=== FILE: README.md ===
# Feishu senders and the DeepWiki client, modelled in Dafny

This project models the decision logic of four scripts from lh-openclaw-kit:

- `scripts/feishu/feishu_send.py` sends an image, a file or a caption to a
  Feishu chat. The model covers how it picks credentials: the `.env` file is
  assigned into the environment, the account falls back to `main`, and
  `${VAR}` placeholders are expanded. It also covers how it resolves the
  recipient (`--to`, then `FEISHU_DEFAULT_TO`, then the first `ou_` entry of
  `allowFrom`), how it decides between file and image mode, the name an image
  is uploaded under, and when an image is re-encoded.
- `tools/feishu_send_card.py` posts an interactive card. The model covers the
  `.env` loading with `setdefault` and quote stripping, the credentials check,
  the default recipient, the numbered item blocks separated by `hr`, and the
  response check.
- `scripts/feishu/feishu_send_work_report.py` posts a daily-report card. The
  model covers the four sections, the skipping of empty ones, numbered versus
  bulleted lists, and the `hr` separators.
- `skills/lh-deepwiki/scripts/deepwiki.js` is a DeepWiki MCP client. The model
  covers how a response body is settled: `data: ` lines first, then the whole
  body, then the HTTP status. It also covers the argument check, the mapping
  from commands to tools, the printing of content items, and the order of
  steps in `run`.

Modules, one file each:

- `Wrappers`: Option and Result.
- `Seqs`: find, join and split on sequences.
- `Strings`: Python whitespace stripping, ASCII lower-casing, decimal numerals.
- `Json`: JSON values, JavaScript truthiness, Python truthiness and `== 0`.
- `Placeholders`: `expand_env`.
- `EnvFile`: both `.env` loaders.
- `FeishuSend`, `FeishuCard`, `WorkReport`, `DeepWiki`: the scripts.
- `CardLayout`: the card shared by the two card scripts.

Network requests, files and clocks are inputs:

- the environment is a map;
- the `.env` file is its list of lines;
- `openclaw.json` appears as the accounts map and the `allowFrom` list;
- the image library's output is an optional byte string;
- `JSON.parse` is a function parameter that yields `None` where it would throw;
- each MCP call's settlement is given.

## Model

| member | source | states |
|---|---|---|
| Placeholders.DollarFreeUnchanged | scripts/feishu/feishu_send.py:26-29 | a text without `$` comes back unchanged from `expand_env` |
| Placeholders.PlaceholderAt | scripts/feishu/feishu_send.py:29 | a match of `[$][{]([^}]+)[}]` at the start of a text captures a non-empty name without `}`, and the text begins with `${name}` |
| Placeholders.PlaceholderAtMatches | scripts/feishu/feishu_send.py:29 | the pattern matches `${NAME}` for every non-empty NAME free of `}` |
| Placeholders.EmptyNameNotPlaceholder | scripts/feishu/feishu_send.py:29 | `${}` is never matched, because the group needs at least one character |
| Placeholders.TokenNamesValid | scripts/feishu/feishu_send.py:29 | every placeholder the left-to-right scan cuts out has a name the pattern can capture |
| Placeholders.RenderTokenize | scripts/feishu/feishu_send.py:29 | the scan loses nothing: its tokens spell the original text |
| Placeholders.ExpandEnvIsSubstitution | scripts/feishu/feishu_send.py:29 | expansion equals substituting each token independently: the value of a set name, otherwise the token's own text |
| Placeholders.ExpandUnsetIsRender | scripts/feishu/feishu_send.py:29 | when no referenced name is set, substitution reproduces the tokens' text |
| Placeholders.UnsetPlaceholdersKept | scripts/feishu/feishu_send.py:29 | with none of a text's names set, `expand_env` returns the text unchanged (the `m.group(0)` default) |
| Placeholders.SetPlaceholderReplaced | scripts/feishu/feishu_send.py:29 | a placeholder whose name is set becomes its value, and the scan resumes after its `}` |
| Placeholders.UnsetPlaceholderKept | scripts/feishu/feishu_send.py:29 | a placeholder whose name is unset stays verbatim, and the scan resumes after its `}` |
| Placeholders.EmptyNameKept | scripts/feishu/feishu_send.py:29 | `${}` is copied and the rest is still expanded |
| Placeholders.LiteralStep | scripts/feishu/feishu_send.py:29 | a character where no match starts is copied, and the scan moves on one position |
| Placeholders.LiteralPrefixKept | scripts/feishu/feishu_send.py:29 | text before the first `$` is copied unchanged, and the remainder is expanded on its own |
| EnvFile.ParseLine | scripts/feishu/feishu_send.py:37-41 | a line is skipped exactly when, stripped, it is empty, starts with `#` or has no `=`; otherwise the key has no `=`, and key and value are stripped |
| EnvFile.ParseLineRoundTrip | scripts/feishu/feishu_send.py:38-41 | `KEY=VALUE`, with KEY and VALUE stripped and KEY free of `=` and `#`-first, parses back to KEY and VALUE, even when VALUE contains `=` (split at the first `=`) |
| EnvFile.ParseLineStrips | scripts/feishu/feishu_send.py:38-41 | any line `KEY=VALUE` with no `=` in KEY that is not a comment once stripped, such as a line still ending in its line break, parses to KEY and VALUE each stripped |
| EnvFile.LoadAssigningLastWins | scripts/feishu/feishu_send.py:32-41 | after the assigning loader, a variable holds the value of the last line that sets it, and keeps its earlier value only when no line sets it |
| EnvFile.StripQuotes | tools/feishu_send_card.py:30 | after `.strip('"').strip("'")` the value neither starts nor ends with `'` |
| EnvFile.StripQuotesRoundTrip | tools/feishu_send_card.py:30 | a value in double or single quotes is read back without them, when it does not itself start or end with a quote |
| EnvFile.StripQuotesUnchanged | tools/feishu_send_card.py:30 | a value with no quote at either end is stored as written |
| EnvFile.LoadKeeping | tools/feishu_send_card.py:24-30 | the `setdefault` loader never changes or removes a variable that is already set |
| EnvFile.LoadKeepingFirstWins | tools/feishu_send_card.py:24-30 | a set variable keeps its value; an unset one gets the unquoted value of the first line that sets it, or stays unset |
| FeishuSend.SelectAccount | scripts/feishu/feishu_send.py:49-50 | the named account when present and truthy, otherwise `main` if present, otherwise none |
| FeishuSend.LoadCredentials | scripts/feishu/feishu_send.py:44-53 | fails with "no account" exactly when neither account exists; succeeds exactly when the selected entry has string `appId` and `appSecret`, and then the credentials are those two strings with `${VAR}` placeholders expanded against the environment after `.env` is loaded |
| FeishuSend.UnknownAccountFallsBackToMain | scripts/feishu/feishu_send.py:49-50 | an account name that does not exist yields exactly the credentials of `main` |
| FeishuSend.CredentialsFromEnvFile | scripts/feishu/feishu_send.py:45-52 | an `appId` of `${X}` takes the value of the last `.env` line setting X; a `$`-free secret is used verbatim |
| FeishuSend.Classify | scripts/feishu/feishu_send.py:209-212 | an id is a chat id exactly when it starts with `oc_` |
| FeishuSend.FromAllowList | scripts/feishu/feishu_send.py:220-224 | the result is an eligible entry of the list (a string other than `*` that starts with `ou_`); "no recipient" exactly when every entry is an ineligible string |
| FeishuSend.FromAllowListBadEntry | scripts/feishu/feishu_send.py:220-224 | the "bad entry" error happens exactly when some entry is not a string and every entry before it is an ineligible string |
| FeishuSend.FromAllowListFirst | scripts/feishu/feishu_send.py:221-223 | the first eligible entry is the one chosen |
| FeishuSend.ResolveReceiveId | scripts/feishu/feishu_send.py:207-224 | a non-empty `to` wins, classified by prefix; else a non-empty `FEISHU_DEFAULT_TO`, classified the same way; else the allow-list entry as an open id, or the allow-list error |
| FeishuSend.ResolvedTypeFollowsPrefix | scripts/feishu/feishu_send.py:207-224 | whatever the source of the recipient, its id is non-empty and its id type is the one the `oc_` prefix rule gives |
| FeishuSend.AllowListSkipsWildcard | scripts/feishu/feishu_send.py:217-223 | `["*", "ou_123"]` resolves to the open id `ou_123` |
| FeishuSend.BaseName | scripts/feishu/feishu_send.py:197-203 | the name is the tail of the path after its last `/` and contains no `/` |
| FeishuSend.SuffixStart | scripts/feishu/feishu_send.py:245 | the suffix starts at a `.` that is neither the first nor the last character, with no `.` after it |
| FeishuSend.StemSuffixSplit | scripts/feishu/feishu_send.py:173 | a name is its stem followed by its suffix |
| FeishuSend.JpgRename | scripts/feishu/feishu_send.py:173 | `STEM.jpg` has suffix `.jpg` and stem STEM |
| FeishuSend.IsFileMode | scripts/feishu/feishu_send.py:242-246 | `--file` forces file mode; a URL is an image unless forced; a local source is a file exactly when its lower-cased suffix is non-empty and not an image extension |
| FeishuSend.BaseNameAfterSlash | scripts/feishu/feishu_send.py:197 | the name of `DIR/F` is F |
| FeishuSend.SuffixAfterDot | scripts/feishu/feishu_send.py:245 | `NAME.EXT` has suffix `.EXT` |
| FeishuSend.FileModeByExtension | scripts/feishu/feishu_send.py:242-246 | a local `DIR/NAME.EXT` is sent as a file exactly when the lower-cased `.EXT` is not an image extension |
| FeishuSend.BeforeQuery | scripts/feishu/feishu_send.py:197 | the part before the first `?` is a prefix without `?`, and a `?` follows it when it is shorter than the text |
| FeishuSend.SourceFilename | scripts/feishu/feishu_send.py:191-204 | a URL's file name is non-empty and free of `/` and `?`; a local path's is its base name |
| FeishuSend.UrlFilenameRoundTrip | scripts/feishu/feishu_send.py:197 | a URL ending `/NAME` is uploaded as NAME |
| FeishuSend.UrlQueryDropped | scripts/feishu/feishu_send.py:197 | a URL ending `/NAME?QUERY` is uploaded as NAME |
| FeishuSend.UrlWithoutNameUsesDefault | scripts/feishu/feishu_send.py:197 | a URL ending in `/` is uploaded as `image.jpg` |
| FeishuSend.DefaultThreshold | scripts/feishu/feishu_send.py:155-162 | with the default 3072 KB threshold an image of at most 3 MiB passes through unchanged, and a larger one is replaced by the re-encoded bytes when the library is present |
| FeishuSend.CompressImage | scripts/feishu/feishu_send.py:155-188 | within the threshold, or without the image library, bytes and name pass through; otherwise the re-encoded bytes go out as the stem plus `.jpg` |
| FeishuSend.CompressedNameIsImage | scripts/feishu/feishu_send.py:173-186 | the re-encoded name keeps the stem, is sent as an image, and a second compression keeps it |
| FeishuSend.JpgNameIsImage | scripts/feishu/feishu_send.py:242-246 | `STEM.jpg` is its own base name, has stem STEM and is not sent as a file |
| FeishuSend.PlanSend | scripts/feishu/feishu_send.py:227-246 | a credentials error comes first; otherwise the plan exists exactly when the recipient resolves against the environment with the `.env` lines assigned, and its mode is the file-mode test |
| FeishuSend.EnvFileDefaultUsed | scripts/feishu/feishu_send.py:236-239 | with no `--to`, a non-empty `FEISHU_DEFAULT_TO` from the `.env` file names the recipient |
| CardLayout.SeparatedShape | tools/feishu_send_card.py:60-66 | joining non-empty markdown groups with `hr` puts every `hr` between two markdown blocks, and splitting at `hr` gives the groups back |
| CardLayout.SeparatedHrCount | tools/feishu_send_card.py:61-63 | n groups are separated by exactly n-1 `hr` elements |
| FeishuCard.CardCredentials | tools/feishu_send_card.py:20-35 | succeeds exactly when app id and secret are both non-empty after loading `.env` without overwriting; otherwise the error is missing credentials |
| FeishuCard.SetCredentialsWin | tools/feishu_send_card.py:30-35 | credentials already in the environment are used whatever the file says |
| FeishuCard.DefaultRecipient | tools/feishu_send_card.py:54-55 | a non-empty `to` is used; otherwise `FEISHU_DEFAULT_TO` when set, even if empty; otherwise the fixed open id |
| FeishuCard.ItemGroups | tools/feishu_send_card.py:61-66 | one single-block group per item, the i-th holding item i's markdown |
| FeishuCard.CardElements | tools/feishu_send_card.py:60-66 | n items give no elements when n is 0, else 2n-1: item i's markdown at position 2i and `hr` between consecutive items |
| FeishuCard.BuildElements | tools/feishu_send_card.py:60-66 | the element loop (an `hr` before every item but the first) computes the card's elements |
| FeishuCard.CardElementsShape | tools/feishu_send_card.py:60-66 | the elements have no stray `hr`, and splitting them at `hr` gives one block per item |
| FeishuCard.ItemNumbering | tools/feishu_send_card.py:65 | the block of item i starts with `**i+1.** `, and the numeral reads back as i+1 |
| FeishuCard.PrepareCard | tools/feishu_send_card.py:45-80 | fails exactly when the credentials check fails; otherwise the message carries the title, the given colour or `blue` when none is given, the elements, the recipient taken from the environment on entry, `open_id` and `interactive` |
| FeishuCard.MessageIdOf | tools/feishu_send_card.py:90-94 | an object response whose `code` is not Python-equal to 0 fails carrying the response; success exactly when `code == 0` and `data.message_id` exists, which is then returned; a response that is not an object, or has `code == 0` without `data.message_id`, fails as malformed, where Python raises |
| FeishuCard.ResponseExamples | tools/feishu_send_card.py:90-94 | `{"code": 0, "data": {"message_id": m}}` yields m; `code: 99` fails with the response |
| FeishuCard.PrepareCardEnvFirst | tools/feishu_send_card.py:51-57 | the corrected order: the default recipient is read after `.env` is loaded; the card is the one the as-written order builds |
| FeishuCard.EnvFileDefaultHonoured | tools/feishu_send_card.py:51-57 | in the corrected order, a `FEISHU_DEFAULT_TO` set only in `.env` is used, unquoted |
| FeishuCard.EnvFileDefaultIgnored | tools/feishu_send_card.py:54-57 | as written, a `FEISHU_DEFAULT_TO` set only in `.env` is ignored and the fixed id is used, so the two orders send to different recipients |
| WorkReport.Numbered | scripts/feishu/feishu_send_work_report.py:60-61 | a section is numbered exactly when it is done or tomorrow |
| WorkReport.TitleMark | scripts/feishu/feishu_send_work_report.py:43-48 | each section title starts with its own symbol |
| WorkReport.Marker | scripts/feishu/feishu_send_work_report.py:61-64 | a list marker is a non-empty single line starting with `-` or a digit |
| WorkReport.MarkerMeaning | scripts/feishu/feishu_send_work_report.py:61-64 | an unnumbered marker is `- `; a numbered marker at position `i` is the decimal digits of `i + 1`, without a leading zero, followed by `. ` |
| WorkReport.ListRoundTrip | scripts/feishu/feishu_send_work_report.py:60-65 | a non-empty list of single-line items is read back from its markdown by splitting lines and dropping markers |
| WorkReport.ShownMembers | scripts/feishu/feishu_send_work_report.py:51-53 | exactly the sections with items are laid out, none more often than it is listed |
| WorkReport.ShownInOrder | scripts/feishu/feishu_send_work_report.py:42-53 | the sections laid out keep the layout order they were listed in (done, in progress, blocked, tomorrow) |
| WorkReport.SectionsInOrder | scripts/feishu/feishu_send_work_report.py:42-47 | the report lists its four sections in layout order, each once |
| WorkReport.GroupsAreShownBlocks | scripts/feishu/feishu_send_work_report.py:50-65 | there is one group per shown section, holding its title block and its list |
| WorkReport.ReportElements | scripts/feishu/feishu_send_work_report.py:41-65 | with k non-empty sections: no elements when k is 0, else 3k-1 of which k-1 are `hr`; no stray `hr`; splitting at `hr` gives the section groups |
| WorkReport.HeadingShown | scripts/feishu/feishu_send_work_report.py:51-58 | a section's title block appears exactly when the section has items |
| WorkReport.HeadingInGroups | scripts/feishu/feishu_send_work_report.py:51-58 | a title block is among the laid-out groups exactly when its section is scanned and has items |
| WorkReport.BuildReportElements | scripts/feishu/feishu_send_work_report.py:41-65 | the `first`-flag loop computes the report's elements |
| WorkReport.LayOutSections | scripts/feishu/feishu_send_work_report.py:50-65 | the loop over any section list produces the `hr`-separated groups of its non-empty sections |
| WorkReport.PrepareReport | scripts/feishu/feishu_send_work_report.py:27-80 | fails exactly when the credentials check fails; otherwise the header title is the fixed prefix and the date, the colour is the given one or `purple` when none is given, the elements are the report's, and the recipient is taken from the environment on entry |
| WorkReport.NumberedPairExample | scripts/feishu/feishu_send_work_report.py:62 | `["a", "b"]` numbered is `1. a\n2. b` |
| WorkReport.DoneOnly | scripts/feishu/feishu_send_work_report.py:43-65 | a report with only two done items has one title block and a numbered list, and no `hr` |
| WorkReport.DoneOnlyExample | scripts/feishu/feishu_send_work_report.py:43-65 | `{"done": ["a", "b"], "blocked": []}` lays out as the done title and `1. a\n2. b` |
| DeepWiki.Sample | skills/lh-deepwiki/scripts/deepwiki.js:83-85 | the sample is the whole body when it has at most 500 characters, and otherwise exactly its first 500 |
| DeepWiki.Decide | skills/lh-deepwiki/scripts/deepwiki.js:64-65 | a message decides exactly when `result` or `error` is truthy; a truthy `result` resolves with it, even when `error` is set; otherwise a truthy `error` rejects with that error |
| DeepWiki.DataLine | skills/lh-deepwiki/scripts/deepwiki.js:61-68 | only a `data: ` line whose rest parses can decide, and when it parses it decides exactly as that message does |
| DeepWiki.ScanLines | skills/lh-deepwiki/scripts/deepwiki.js:57-70 | nothing is decided exactly when no line decides; otherwise the outcome is that of a decisive line with no decisive line before it |
| DeepWiki.FindDecisiveLine | skills/lh-deepwiki/scripts/deepwiki.js:60-70 | the early-return loop over the lines computes the first decisive line |
| DeepWiki.ScanAppend | skills/lh-deepwiki/scripts/deepwiki.js:60-70 | lines after a decisive one are never consulted; before any, the scan moves on |
| DeepWiki.Fallback | skills/lh-deepwiki/scripts/deepwiki.js:82-86 | an HTTP error exactly when the status is not 200, with the status and the sample, or `Unknown Error` for an empty body; otherwise a protocol error with the sample |
| DeepWiki.SelectResponse | skills/lh-deepwiki/scripts/deepwiki.js:54-87 | a decisive `data: ` line wins; else the whole body, parsed, if it decides; else the status fallback |
| DeepWiki.ResolvedIsTruthy | skills/lh-deepwiki/scripts/deepwiki.js:64-75 | a call resolves only with a truthy value, and rejects with an MCP error only when a decisive line or the whole body carried a truthy `error` |
| DeepWiki.StatusIgnoredWhenDecided | skills/lh-deepwiki/scripts/deepwiki.js:72-86 | when a line or the body decides, the status makes no difference |
| DeepWiki.DataLineFirst | skills/lh-deepwiki/scripts/deepwiki.js:59-70 | a decisive `data: ` line after lines that decide nothing decides, whatever follows it |
| DeepWiki.ParseArgs | skills/lh-deepwiki/scripts/deepwiki.js:10-19 | usage exactly when the command or the repo is missing or empty; otherwise they are the first two arguments, and `extra` is empty with no further arguments and the third argument alone with one |
| DeepWiki.ExtraRoundTrip | skills/lh-deepwiki/scripts/deepwiki.js:13 | further arguments without spaces are recovered by splitting `extra` at spaces |
| DeepWiki.ExtraSnoc | skills/lh-deepwiki/scripts/deepwiki.js:13 | one more argument appends a space and that argument to `extra`, whatever spaces the arguments contain |
| DeepWiki.ToolFor | skills/lh-deepwiki/scripts/deepwiki.js:114-130 | exactly `ask`, `structure` and `contents` map to a tool, each with `repoName`; `ask` passes `question` and `contents` passes `path` |
| DeepWiki.ToolNamesDistinct | skills/lh-deepwiki/scripts/deepwiki.js:114-126 | different commands call different tools |
| DeepWiki.OptField | skills/lh-deepwiki/scripts/deepwiki.js:144-145 | `v?.key` is absent when `v` is absent or `null`, and is the property otherwise |
| DeepWiki.ItemLines | skills/lh-deepwiki/scripts/deepwiki.js:141-146 | a `text` item prints its text; a `resource` item prints its uri line, then its text; any other item prints nothing |
| DeepWiki.PrintItems | skills/lh-deepwiki/scripts/deepwiki.js:140-147 | printing fails exactly when a `null` item is present, and then with the null-item error |
| DeepWiki.PrintItemsPrefix | skills/lh-deepwiki/scripts/deepwiki.js:140-147 | everything before the first `null` item is printed, in order, and nothing after it |
| DeepWiki.FormatResult | skills/lh-deepwiki/scripts/deepwiki.js:138-151 | a falsy result or content prints the raw result; array content prints its items; a truthy string content prints nothing and succeeds; the printer fails exactly on non-string, non-array content or an array holding `null` |
| DeepWiki.Run | skills/lh-deepwiki/scripts/deepwiki.js:104-156 | usage exits 0 with the two usage lines; a failed `initialize` exits 1; an unknown command exits 1 after `initialize`; a rejected tool call exits 1 with its failure; a resolved one prints what the result printer prints, with no error line when the printer succeeds and its failure otherwise; exit 0 exactly when there is no error line |
| DeepWiki.UnknownCommandAfterInitialize | skills/lh-deepwiki/scripts/deepwiki.js:106-130 | an unknown command is reported only if `initialize` succeeded; otherwise the server's failure is reported |

## Left out

- HTTP requests, `raise_for_status`, timeouts and the `urllib`/`https` transports are left out; each call's result is an input. The tenant-token request (`get_token` in both Python senders) and the upload and send requests of scripts/feishu/feishu_send.py are outside the model.
- Reading files (`openclaw.json`, `.env`, the items and report files, the image, the file to send) is left out. Their contents are inputs, and a missing file is not modelled.
- The image library's re-encoding is left out: the quality ladder 85/75/65 and the resize by the square-root ratio. Its output is an input. FeishuSend.CompressImage: the re-encoded bytes are not shown to fit within the threshold, because that depends on the library.
- `JSON.parse`, `json.load`, `console.log` and `JSON.stringify` rendering are left out. Parsing is a parameter, and printed values are kept as JSON values rather than text.
- The text of the error messages is left out. The model keeps the failure kind and its data (MCP error object, status, 500-character sample); it does not keep the formatted `message (code: ...)` string.
- `slice(0, 500)` in deepwiki.js counts UTF-16 code units. The model counts characters, so a body with characters outside the Basic Multilingual Plane is cut at a different point.
- Response bodies arriving in chunks are left out. The body is taken as already concatenated.
- `Path` normalisation is left out: `Path("a/b/")` has name `b`, and `.` and repeated `/` are collapsed. The model takes the text after the last `/`, which is what `source.split("/")[-1]` does for URLs.
- `str.lower()` is modelled on ASCII letters only. No image extension contains a non-ASCII letter, so the file-mode test is unaffected except for characters that lower-case to ASCII (such as the Kelvin sign).
- A `.env` line with an empty key is left out. `os.environ[""] = v` raises a platform-dependent `ValueError`; the model stores it.
- A `.env` key or value containing a NUL character is left out. `os.environ[k] = v` and `os.environ.setdefault(k, v)` raise `ValueError` (embedded null byte); the model stores the entry.
- The file-name suffix follows `Path.suffix` up to Python 3.13, where a name ending in a single `.` (such as `photo.`) has no suffix. Python 3.14 gives such a name the suffix `.`, which would send it as a file.
- The work-report values are modelled as lists of strings. A non-list value, and the `str()` of non-string items in the f-string, are left out.
- In tools/feishu_send_card.py, an item missing one of its four keys (a `KeyError`) is left out. Items are records with all four fields.
- FeishuCard.ItemMarkdown: item fields are modelled as strings, so the `str()` the f-string applies to a number, list or other non-string field is left out.
- FeishuSend.CompressImage: an image over the threshold whose bytes the image library cannot open raises, and only `ImportError` is caught, so the upload aborts. The model has no such failure path: the library's result is an input, and over the threshold it is always used.
- `--caption` and the printed progress lines of scripts/feishu/feishu_send.py are left out.
- In DeepWiki.DataLine, a `data: ` line whose message is JSON `null` is modelled as deciding nothing. The script's `parsed.result` throws there, and the exception is caught and ignored, which has the same effect.
- The random `id: Date.now()` of each MCP request is left out.

## Findings

| source | as written | input that shows it | evidently intended | confidence | as-written member | corrected member |
|---|---|---|---|---|---|---|
| tools/feishu_send_card.py:51-57 | the default recipient is read from `os.environ` before `get_token` loads `~/.openclaw/.env` | no `--to`, `FEISHU_DEFAULT_TO` unset in the environment and set in `.env` to another open id: the card goes to the fixed `ou_6a01…` id | the docstring says the default is read from `.env`, so the file should be loaded first (scripts/feishu/feishu_send.py loads it first, see FeishuSend.EnvFileDefaultUsed); scripts/feishu/feishu_send_work_report.py:36-39 has the same order, modelled as written by WorkReport.PrepareReport | medium, not executed | FeishuCard.EnvFileDefaultIgnored | FeishuCard.PrepareCardEnvFirst |

=== FILE: card_layout.dfy ===
/**
 * The interactive card both card scripts post: a header with a title and a
 * colour template, and an ordered list of `markdown` and `hr` elements in
 * which groups of markdown blocks are separated by a single `hr`.
 */
module CardLayout {
  import opened Seqs

  datatype Element = Markdown(content: string) | Hr

  datatype Header = Header(title: string, template: string)

  datatype Card = Card(header: Header, elements: seq<Element>)

  /** The body of the send request: `receive_id`, the `receive_id_type` in the URL, `msg_type`, and the card. */
  datatype CardMessage = CardMessage(receiveId: string, receiveIdType: string, msgType: string, card: Card)

  /** The groups in order, with one `hr` between consecutive groups and none at either end. */
  function Separated(groups: seq<seq<Element>>): seq<Element> {
    Join(groups, [Hr])
  }

  predicate MarkdownOnly(g: seq<Element>) {
    forall k :: 0 <= k < |g| ==> g[k].Markdown?
  }

  /**
   * Every `hr` sits strictly inside the list between two markdown blocks: the
   * list starts and ends with markdown and never has two `hr` in a row.
   */
  predicate NoStrayHr(es: seq<Element>) {
    forall k :: 0 <= k < |es| && es[k].Hr? ==> 0 < k < |es| - 1 && es[k - 1].Markdown? && es[k + 1].Markdown?
  }

  /**
   * Separating non-empty markdown-only groups yields a list with no stray
   * `hr`, and splitting it at `hr` gives the groups back.
   */
  lemma {:induction false} SeparatedShape(groups: seq<seq<Element>>)
    requires forall i :: 0 <= i < |groups| ==> groups[i] != [] && MarkdownOnly(groups[i])
    ensures NoStrayHr(Separated(groups))
    ensures |groups| > 0 ==> Separated(groups) != [] && Separated(groups)[0].Markdown?
    ensures |groups| > 0 ==> Split(Separated(groups), Hr) == groups
    decreases |groups|
  {
    if |groups| > 1 {
      var a := groups[0];
      var b := Separated(groups[1..]);
      SeparatedShape(groups[1..]);
      var es := a + [Hr] + b;
      assert Separated(groups) == es;
      forall k | 0 <= k < |es| && es[k].Hr?
        ensures 0 < k < |es| - 1 && es[k - 1].Markdown? && es[k + 1].Markdown?
      {
        if k == |a| {
          assert es[k - 1] == a[|a| - 1];
          assert es[k + 1] == b[0];
        } else if k > |a| {
          assert es[k] == b[k - |a| - 1];
          assert es[k - 1] == (if k - 1 == |a| then Hr else b[k - |a| - 2]);
          assert es[k + 1] == b[k - |a|];
        }
      }
      assert es[0] == a[0];
    }
    if |groups| > 0 {
      forall i | 0 <= i < |groups| ensures Hr !in groups[i] {
        assert MarkdownOnly(groups[i]);
      }
      SplitJoin(groups, Hr);
    }
  }

  /** The number of `hr` elements in a list. */
  function HrCount(es: seq<Element>): nat {
    if |es| == 0 then 0 else (if es[0].Hr? then 1 else 0) + HrCount(es[1..])
  }

  lemma {:induction false} HrCountAppend(a: seq<Element>, b: seq<Element>)
    ensures HrCount(a + b) == HrCount(a) + HrCount(b)
    decreases |a|
  {
    if |a| > 0 {
      assert (a + b)[1..] == a[1..] + b;
      HrCountAppend(a[1..], b);
    } else {
      assert a + b == b;
    }
  }

  /** Markdown-only groups separated: exactly one `hr` between each pair of consecutive groups. */
  lemma {:induction false} SeparatedHrCount(groups: seq<seq<Element>>)
    requires |groups| > 0
    requires forall i :: 0 <= i < |groups| ==> MarkdownOnly(groups[i])
    ensures HrCount(Separated(groups)) == |groups| - 1
    decreases |groups|
  {
    if |groups| == 1 {
      MarkdownOnlyNoHr(groups[0]);
    } else {
      SeparatedHrCount(groups[1..]);
      MarkdownOnlyNoHr(groups[0]);
      HrCountAppend(groups[0], [Hr]);
      HrCountAppend(groups[0] + [Hr], Separated(groups[1..]));
      assert HrCount([Hr]) == 1;
    }
  }

  lemma {:induction false} MarkdownOnlyNoHr(g: seq<Element>)
    requires MarkdownOnly(g)
    ensures HrCount(g) == 0
    decreases |g|
  {
    if |g| > 0 {
      MarkdownOnlyNoHr(g[1..]);
    }
  }
}

=== FILE: deepwiki.dfy ===
/**
 * skills/lh-deepwiki/scripts/deepwiki.js: the command-line check, the choice
 * of outcome from an MCP response body (Server-Sent-Events `data: ` lines
 * first, then the whole body, then the HTTP status), the mapping from
 * commands to DeepWiki tools, the printing of a tool result, and the order in
 * which `run` does these. The HTTP exchange itself is an input: each call's
 * outcome is given, and `JSON.parse` is the parameter `parse`, which yields
 * `None` where it would throw.
 */
module DeepWiki {
  import opened Wrappers
  import opened Seqs
  import opened Strings
  import opened Json

  /** Why a call to the MCP server failed. */
  datatype Failure =
    | McpError(error: Json)                 // a decisive line or body with a truthy `error`
    | HttpError(status: nat, detail: string) // nothing decisive, status not 200
    | ProtocolError(sample: string)         // nothing decisive, status 200
    | Transport(reason: string)             // request error or timeout
    | NotIterable                           // `result.content` is truthy but cannot be iterated
    | NullItem                              // `item.type` read on a `null` item

  /** How the promise of `mcpCall` settles. */
  datatype Outcome = Resolved(value: Json) | Rejected(failure: Failure)

  const DataPrefix := "data: "

  /** The number of characters of the body kept in an error message. */
  const SampleLength := 500

  /** `body.slice(0, 500)`. */
  function Sample(body: string): (r: string)
    ensures |r| <= SampleLength && r <= body
    ensures |body| <= SampleLength ==> r == body
    ensures |body| > SampleLength ==> |r| == SampleLength
  {
    if |body| <= SampleLength then body else body[..SampleLength]
  }

  /**
   * What one parsed message decides: a truthy `result` resolves, else a
   * truthy `error` rejects, else nothing is decided.
   */
  function Decide(j: Json): (r: Option<Outcome>)
    ensures r.Some? <==> JsTruthy(Field(j, "result")) || JsTruthy(Field(j, "error"))
    ensures JsTruthy(Field(j, "result")) ==> r == Some(Resolved(j.fields["result"]))
    ensures !JsTruthy(Field(j, "result")) && JsTruthy(Field(j, "error")) ==> r == Some(Rejected(McpError(j.fields["error"])))
    ensures r.Some? && r.value.Rejected? ==> !JsTruthy(Field(j, "result")) && r.value == Rejected(McpError(j.fields["error"]))
  {
    if JsTruthy(Field(j, "result")) then Some(Resolved(j.fields["result"]))
    else if JsTruthy(Field(j, "error")) then Some(Rejected(McpError(j.fields["error"])))
    else None
  }

  /**
   * What one line of the body decides: only a line starting with `data: `
   * whose rest parses counts; a parse failure is ignored.
   */
  function DataLine(line: string, parse: string -> Option<Json>): (r: Option<Outcome>)
    ensures r.Some? ==> StartsWith(line, DataPrefix) && parse(line[|DataPrefix|..]).Some?
    ensures StartsWith(line, DataPrefix) && parse(line[|DataPrefix|..]).Some? ==>
      r == Decide(parse(line[|DataPrefix|..]).value)
  {
    if StartsWith(line, DataPrefix) then
      match parse(line[|DataPrefix|..])
      case Some(j) => Decide(j)
      case None => None
    else None
  }

  /** The first decisive line, if any. */
  function ScanLines(lines: seq<string>, parse: string -> Option<Json>): (r: Option<Outcome>)
    ensures r.None? <==> forall i :: 0 <= i < |lines| ==> DataLine(lines[i], parse).None?
    ensures r.Some? ==> exists i :: 0 <= i < |lines| && DataLine(lines[i], parse) == r &&
                                    forall k :: 0 <= k < i ==> DataLine(lines[k], parse).None?
    decreases |lines|
  {
    if |lines| == 0 then None
    else match DataLine(lines[0], parse)
      case Some(o) => Some(o)
      case None =>
        var r := ScanLines(lines[1..], parse);
        assert forall i :: 0 < i < |lines| ==> lines[i] == lines[1..][i - 1];
        r
  }

  /**
   * Strategy 1 of the `end` handler as a loop: the lines in order, stopping at
   * the first decisive one.
   */
  method FindDecisiveLine(lines: seq<string>, parse: string -> Option<Json>) returns (r: Option<Outcome>)
    ensures r == ScanLines(lines, parse)
  {
    var i := 0;
    while i < |lines|
      invariant 0 <= i <= |lines|
      invariant ScanLines(lines, parse) == ScanLines(lines[i..], parse)
    {
      var d := DataLine(lines[i], parse);
      assert lines[i..][1..] == lines[i + 1..];
      if d.Some? {
        return d;
      }
      i := i + 1;
    }
    return None;
  }

  /** Lines after a decisive one are never looked at; before any, they are all skipped. */
  lemma {:induction false} ScanAppend(a: seq<string>, b: seq<string>, parse: string -> Option<Json>)
    ensures ScanLines(a + b, parse) == if ScanLines(a, parse).Some? then ScanLines(a, parse) else ScanLines(b, parse)
    decreases |a|
  {
    if |a| == 0 {
      assert a + b == b;
    } else {
      assert (a + b)[0] == a[0];
      assert (a + b)[1..] == a[1..] + b;
      ScanAppend(a[1..], b, parse);
    }
  }

  /** The whole body as one response (strategy 2). */
  function WholeBody(body: string, parse: string -> Option<Json>): Option<Outcome> {
    match parse(body)
    case Some(j) => Decide(j)
    case None => None
  }

  /** The error when nothing was decisive: by status, with the body's first 500 characters. */
  function Fallback(status: nat, body: string): (r: Failure)
    ensures status != 200 <==> r.HttpError?
    ensures r.HttpError? ==> r.status == status && r.detail == (if body == [] then "Unknown Error" else Sample(body))
    ensures status == 200 ==> r == ProtocolError(Sample(body))
    ensures r.ProtocolError? ==> r.sample == Sample(body)
  {
    if status != 200 then HttpError(status, if Sample(body) == [] then "Unknown Error" else Sample(body))
    else ProtocolError(Sample(body))
  }

  /** The `end` handler of `mcpCall`: how the call settles given the status and the whole body. */
  function SelectResponse(status: nat, body: string, parse: string -> Option<Json>): (r: Outcome)
    ensures ScanLines(Split(body, '\n'), parse).Some? ==> r == ScanLines(Split(body, '\n'), parse).value
    ensures ScanLines(Split(body, '\n'), parse).None? && WholeBody(body, parse).Some? ==> r == WholeBody(body, parse).value
    ensures ScanLines(Split(body, '\n'), parse).None? && WholeBody(body, parse).None? ==> r == Rejected(Fallback(status, body))
  {
    match ScanLines(Split(body, '\n'), parse)
    case Some(o) => o
    case None =>
      match WholeBody(body, parse)
      case Some(o) => o
      case None => Rejected(Fallback(status, body))
  }

  /** A call resolves only with a truthy value, and only a decisive message can reject with an MCP error. */
  lemma ResolvedIsTruthy(status: nat, body: string, parse: string -> Option<Json>)
    ensures SelectResponse(status, body, parse).Resolved? ==> JsTruthy(Some(SelectResponse(status, body, parse).value))
    ensures SelectResponse(status, body, parse).Rejected? && SelectResponse(status, body, parse).failure.McpError? ==>
      && (ScanLines(Split(body, '\n'), parse).Some? || WholeBody(body, parse).Some?)
      && JsTruthy(Some(SelectResponse(status, body, parse).failure.error))
  {
    var lines := Split(body, '\n');
    match ScanLines(lines, parse)
    case Some(o) =>
      var i :| 0 <= i < |lines| && DataLine(lines[i], parse) == Some(o);
    case None =>
  }

  /** The status matters only when no line and not the body decides. */
  lemma StatusIgnoredWhenDecided(s1: nat, s2: nat, body: string, parse: string -> Option<Json>)
    requires ScanLines(Split(body, '\n'), parse).Some? || WholeBody(body, parse).Some?
    ensures SelectResponse(s1, body, parse) == SelectResponse(s2, body, parse)
  {
  }

  /**
   * A decisive `data: ` line wins over a body that, read whole, would decide
   * otherwise; lines before it that decide nothing (other lines, notifications
   * without `result` or `error`, unparsable payloads) are passed over, and
   * lines that come after it change nothing.
   */
  lemma DataLineFirst(before: seq<string>, payload: string, after: seq<string>, j: Json, parse: string -> Option<Json>)
    requires forall i :: 0 <= i < |before| ==> DataLine(before[i], parse).None?
    requires parse(payload) == Some(j)
    requires JsTruthy(Field(j, "result")) || JsTruthy(Field(j, "error"))
    ensures ScanLines(before + [DataPrefix + payload] + after, parse) == Decide(j)
  {
    var line := DataPrefix + payload;
    assert line[|DataPrefix|..] == payload;
    assert ScanLines(before, parse).None?;
    assert ScanLines([line], parse) == Decide(j);
    ScanAppend(before, [line] + after, parse);
    ScanAppend([line], after, parse);
    assert before + [line] + after == before + ([line] + after);
  }

  /** The command line after `node deepwiki.js`. */
  datatype Invocation = Usage | Command(command: string, repo: string, extra: string)

  const UsageLines := ["Usage: node scripts/deepwiki.js <command> <owner/repo> [args]", "Commands: ask, structure, contents"]

  /** `args[0]`, `args[1]`, the rest joined with spaces; usage when the command or repo is missing or empty. */
  function ParseArgs(args: seq<string>): (r: Invocation)
    ensures r.Usage? <==> |args| < 2 || args[0] == [] || args[1] == []
    ensures r.Command? ==> r.command == args[0] && r.repo == args[1]
    ensures r.Command? && |args| == 2 ==> r.extra == ""
    ensures r.Command? && |args| == 3 ==> r.extra == args[2]
  {
    if |args| < 2 || args[0] == [] || args[1] == [] then Usage
    else Command(args[0], args[1], Join(args[2..], " "))
  }

  /** The further arguments, when there are some and none holds a space, are read back by splitting `extra` at spaces. */
  lemma ExtraRoundTrip(args: seq<string>)
    requires |args| > 2 && args[0] != [] && args[1] != []
    requires forall i :: 2 <= i < |args| ==> ' ' !in args[i]
    ensures Split(ParseArgs(args).extra, ' ') == args[2..]
  {
    forall k | 0 <= k < |args[2..]| ensures ' ' !in args[2..][k] {
      assert args[2..][k] == args[k + 2];
    }
    SplitJoin(args[2..], ' ');
  }

  /** One more argument adds a space and the argument to `extra`, whatever spaces the arguments hold. */
  lemma ExtraSnoc(args: seq<string>, a: string)
    requires |args| > 2 && args[0] != [] && args[1] != []
    ensures ParseArgs(args + [a]).extra == ParseArgs(args).extra + " " + a
  {
    assert (args + [a])[2..] == args[2..] + [a];
    JoinSnoc(args[2..], a, " ");
  }

  /** A `tools/call` request: the tool and its string arguments. */
  datatype ToolCall = ToolCall(name: string, arguments: map<string, string>)

  /** The `switch` of `run`: three commands, each naming a tool and passing the repo. */
  function ToolFor(command: string, repo: string, extra: string): (r: Option<ToolCall>)
    ensures r.None? <==> command !in {"ask", "structure", "contents"}
    ensures r.Some? ==> "repoName" in r.value.arguments && r.value.arguments["repoName"] == repo
    ensures command == "ask" ==> r == Some(ToolCall("ask_question", map["repoName" := repo, "question" := extra]))
    ensures command == "structure" ==> r == Some(ToolCall("read_wiki_structure", map["repoName" := repo]))
    ensures command == "contents" ==> r == Some(ToolCall("read_wiki_contents", map["repoName" := repo, "path" := extra]))
  {
    match command
    case "ask" => Some(ToolCall("ask_question", map["repoName" := repo, "question" := extra]))
    case "structure" => Some(ToolCall("read_wiki_structure", map["repoName" := repo]))
    case "contents" => Some(ToolCall("read_wiki_contents", map["repoName" := repo, "path" := extra]))
    case _ => None
  }

  /** Different commands call different tools. */
  lemma ToolNamesDistinct(c1: string, c2: string, repo: string, extra: string)
    requires ToolFor(c1, repo, extra).Some? && ToolFor(c2, repo, extra).Some?
    requires c1 != c2
    ensures ToolFor(c1, repo, extra).value.name != ToolFor(c2, repo, extra).value.name
  {
  }

  /** One `console.log` call of the result printer. */
  datatype Printed =
    | Say(text: string)              // a fixed text
    | Log(value: Option<Json>)       // a value as `console.log` shows it (`undefined` when absent)
    | ResourceLine(uri: Option<Json>) // `[Resource: <uri>]`
    | Pretty(result: Json)           // `JSON.stringify(value, null, 2)`

  /** `v?.key`: absent when `v` is absent or `null`, else the property read. */
  function OptField(v: Option<Json>, key: string): (r: Option<Json>)
    ensures v.None? || v == Some(Null) ==> r.None?
    ensures v.Some? && v.value.Obj? ==> r == Field(v.value, key)
  {
    match v
    case None => None
    case Some(Null) => None
    case Some(x) => Field(x, key)
  }

  /** What one content item prints: a text item its text, a resource item its uri line and its text, anything else nothing. */
  function ItemLines(item: Json): (r: seq<Printed>)
    ensures Field(item, "type") == Some(Str("text")) ==> r == [Log(Field(item, "text"))]
    ensures Field(item, "type") == Some(Str("resource")) ==>
      r == [ResourceLine(OptField(Field(item, "resource"), "uri")), Log(OptField(Field(item, "resource"), "text"))]
    ensures Field(item, "type") !in {Some(Str("text")), Some(Str("resource"))} ==> r == []
  {
    if Field(item, "type") == Some(Str("text")) then [Log(Field(item, "text"))]
    else if Field(item, "type") == Some(Str("resource")) then
      var res := Field(item, "resource");
      [ResourceLine(OptField(res, "uri")), Log(OptField(res, "text"))]
    else []
  }

  /** What printing a list of items produced, and whether it stopped on an error. */
  datatype Printout = Printout(printed: seq<Printed>, failure: Option<Failure>)

  /**
   * The `for ... of` loop over an array: each item's lines in order; reading
   * `type` on a `null` item throws, after the items before it were printed.
   */
  function PrintItems(items: seq<Json>): (r: Printout)
    ensures r.failure.None? <==> Null !in items
    ensures r.failure.Some? ==> r.failure.value == NullItem
    decreases |items|
  {
    if |items| == 0 then Printout([], None)
    else if items[0] == Null then Printout([], Some(NullItem))
    else
      var rest := PrintItems(items[1..]);
      assert items == [items[0]] + items[1..];
      Printout(ItemLines(items[0]) + rest.printed, rest.failure)
  }

  /** The lines of the items in order, up to (not including) the first `null`. */
  function LinesBefore(items: seq<Json>, n: nat): seq<Printed>
    requires n <= |items|
    decreases n
  {
    if n == 0 then [] else LinesBefore(items, n - 1) + ItemLines(items[n - 1])
  }

  /** The position of the first `null` item, or the number of items when there is none. */
  function FirstNull(items: seq<Json>): (n: nat)
    ensures n <= |items|
  {
    match IndexOf(items, Null) case Some(i) => i case None => |items|
  }

  /** The printer prints every item before the first `null`, and nothing after it. */
  lemma {:induction false} PrintItemsPrefix(items: seq<Json>)
    ensures PrintItems(items).printed == LinesBefore(items, FirstNull(items))
    decreases |items|
  {
    if |items| > 0 && items[0] != Null {
      PrintItemsPrefix(items[1..]);
      FirstNullShift(items);
      LinesBeforeShift(items, FirstNull(items[1..]));
    } else if |items| > 0 {
      IndexOfAt(items, Null, 0);
    }
  }

  /** Past a first item that is not `null`, the first `null` is one position further on. */
  lemma FirstNullShift(items: seq<Json>)
    requires |items| > 0 && items[0] != Null
    ensures FirstNull(items) == FirstNull(items[1..]) + 1
  {
    var tail := items[1..];
    match IndexOf(tail, Null)
    case Some(i) =>
      assert items[i + 1] == Null && Null !in items[..i + 1] by {
        assert items[..i + 1] == [items[0]] + tail[..i];
      }
      IndexOfAt(items, Null, i + 1);
    case None =>
      assert Null !in items by {
        assert items == [items[0]] + tail;
      }
  }

  /** Dropping the first item: the lines before position `m + 1` are the first item's lines and those of the rest before `m`. */
  lemma {:induction false} LinesBeforeShift(items: seq<Json>, m: nat)
    requires m < |items|
    ensures LinesBefore(items, m + 1) == ItemLines(items[0]) + LinesBefore(items[1..], m)
    decreases m
  {
    if m > 0 {
      LinesBeforeShift(items, m - 1);
      assert items[1..][m - 1] == items[m];
    }
  }

  /**
   * Step 3 of `run`: print the content items when `result.content` is
   * truthy, otherwise the raw result; a truthy string content is iterated
   * character by character and prints nothing; other truthy non-arrays throw.
   */
  function FormatResult(result: Json): (r: Printout)
    ensures !(JsTruthy(Some(result)) && JsTruthy(Field(result, "content"))) ==>
      r == Printout([Say("Result (raw):"), Pretty(result)], None)
    ensures JsTruthy(Field(result, "content")) && result.fields["content"].Arr? ==>
      r == PrintItems(result.fields["content"].items)
    ensures JsTruthy(Field(result, "content")) && result.fields["content"].Str? ==> r == Printout([], None)
    ensures r.failure.Some? <==>
      JsTruthy(Field(result, "content")) && !result.fields["content"].Str?
      && (result.fields["content"].Arr? ==> Null in result.fields["content"].items)
  {
    if !(JsTruthy(Some(result)) && JsTruthy(Field(result, "content"))) then
      Printout([Say("Result (raw):"), Pretty(result)], None)
    else
      match result.fields["content"]
      case Arr(items) => PrintItems(items)
      case Str(_) => Printout([], None)
      case _ => Printout([], Some(NotIterable))
  }

  /** What the process leaves behind: the lines printed, the error line if any, and the exit status. */
  datatype Exit = Exit(stdout: seq<Printed>, stderr: Option<ErrorLine>, status: nat)

  datatype ErrorLine =
    | UnknownCommand(command: string) // `Error: Unknown command "<command>". ...`
    | ExecutionFailed(failure: Failure) // `Execution Failed: <message>`

  /**
   * The whole script: the usage check, then `initialize`, then the command
   * switch, then `tools/call`, then the printing. `initialize` settles as
   * `init`; `tools/call` with a request settles as `call` of that request.
   */
  function Run(args: seq<string>, init: Outcome, call: ToolCall -> Outcome): (r: Exit)
    ensures ParseArgs(args).Usage? ==> r == Exit([Say(UsageLines[0]), Say(UsageLines[1])], None, 0)
    ensures ParseArgs(args).Command? && init.Rejected? ==> r == Exit([], Some(ExecutionFailed(init.failure)), 1)
    ensures ParseArgs(args).Command? && init.Resolved? && ToolFor(args[0], args[1], ParseArgs(args).extra).None? ==>
      r == Exit([], Some(UnknownCommand(args[0])), 1)
    ensures r.status == 0 <==> r.stderr.None?
    ensures ParseArgs(args).Command? && init.Resolved? && ToolFor(args[0], args[1], ParseArgs(args).extra).Some? ==>
      var o := call(ToolFor(args[0], args[1], ParseArgs(args).extra).value);
      && (o.Rejected? ==> r == Exit([], Some(ExecutionFailed(o.failure)), 1))
      && (o.Resolved? ==>
            var p := FormatResult(o.value);
            && r.stdout == p.printed
            && (p.failure.None? ==> r.stderr.None?)
            && (p.failure.Some? ==> r.stderr == Some(ExecutionFailed(p.failure.value))))
    ensures r.status == 0 && ParseArgs(args).Command? ==>
      && init.Resolved?
      && ToolFor(args[0], args[1], ParseArgs(args).extra).Some?
      && call(ToolFor(args[0], args[1], ParseArgs(args).extra).value).Resolved?
  {
    match ParseArgs(args)
    case Usage => Exit([Say(UsageLines[0]), Say(UsageLines[1])], None, 0)
    case Command(command, repo, extra) =>
      if init.Rejected? then Exit([], Some(ExecutionFailed(init.failure)), 1)
      else match ToolFor(command, repo, extra)
        case None => Exit([], Some(UnknownCommand(command)), 1)
        case Some(tc) =>
          match call(tc)
          case Rejected(f) => Exit([], Some(ExecutionFailed(f)), 1)
          case Resolved(result) =>
            var p := FormatResult(result);
            match p.failure
            case None => Exit(p.printed, None, 0)
            case Some(f) => Exit(p.printed, Some(ExecutionFailed(f)), 1)
  }

  /** An unknown command is reported only once `initialize` has succeeded: a failing server hides it. */
  lemma UnknownCommandAfterInitialize(args: seq<string>, f: Failure, call: ToolCall -> Outcome)
    requires |args| >= 2 && args[0] != [] && args[1] != []
    requires args[0] !in {"ask", "structure", "contents"}
    ensures Run(args, Rejected(f), call).stderr == Some(ExecutionFailed(f))
    ensures forall v :: Run(args, Resolved(v), call).stderr == Some(UnknownCommand(args[0]))
  {
  }
}

=== FILE: env_file.dfy ===
/**
 * Reading `~/.openclaw/.env` into the environment. Both scripts parse a line
 * the same way; they differ in what they store: scripts/feishu/feishu_send.py
 * assigns (a later line and the file both win over what is set), while
 * tools/feishu_send_card.py uses `setdefault` (what is set wins, then the
 * earliest line) and additionally strips quotes from the value.
 */
module EnvFile {
  import opened Wrappers
  import opened Seqs
  import opened Strings
  import opened Placeholders

  /** The variable all three senders read the default recipient from. */
  const DefaultToVar := "FEISHU_DEFAULT_TO"

  /** A `KEY=VALUE` line after parsing. */
  datatype Entry = Entry(key: string, value: string)

  /** `env.get(key)`. */
  function Get(env: Env, key: string): Option<string> {
    if key in env then Some(env[key]) else None
  }

  /**
   * One line of the file: stripped; empty lines, `#` comments and lines
   * without `=` are skipped; otherwise split at the first `=`, with key and
   * value stripped.
   */
  function ParseLine(line: string): (r: Option<Entry>)
    ensures r.None? <==> (Strip(line) == [] || Strip(line)[0] == '#' || '=' !in Strip(line))
    ensures r.Some? ==> '=' !in r.value.key && Trimmed(r.value.key, PySpace) && Trimmed(r.value.value, PySpace)
  {
    var l := Strip(line);
    if l == [] || l[0] == '#' then None
    else match IndexOf(l, '=')
      case None => None
      case Some(i) => Some(Entry(Strip(l[..i]), Strip(l[i + 1..])))
  }

  /**
   * Writing a stripped key (not a comment, no `=`) and a stripped value as
   * `KEY=VALUE` and parsing the line gives them back; the value may itself
   * contain `=`.
   */
  lemma ParseLineRoundTrip(k: string, v: string)
    requires k != [] && k[0] != '#' && '=' !in k
    requires Trimmed(k, PySpace) && Trimmed(v, PySpace)
    ensures ParseLine(k + "=" + v) == Some(Entry(k, v))
  {
    var l := k + "=" + v;
    KeyValueShape(k, v);
    TrimUnchanged(l, PySpace);
    ParseStripped(l, |k|);
    TrimUnchanged(k, PySpace);
    TrimUnchanged(v, PySpace);
  }

  lemma KeyValueShape(k: string, v: string)
    requires k != [] && '=' !in k
    requires Trimmed(k, PySpace) && Trimmed(v, PySpace)
    ensures var l := k + "=" + v;
      && l[0] == k[0] && l[..|k|] == k && l[|k| + 1..] == v
      && IndexOf(l, '=') == Some(|k|)
      && Trimmed(l, PySpace)
  {
    var l := k + "=" + v;
    assert l[..|k|] == k;
    assert l[|k|] == '=';
    IndexOfAt(l, '=', |k|);
    assert l[|l| - 1] == if v == [] then '=' else v[|v| - 1];
  }

  /** How a line that is already stripped, is no comment and has its first `=` at `i` parses. */
  lemma ParseStripped(l: string, i: nat)
    requires Strip(l) == l && l != [] && l[0] != '#'
    requires IndexOf(l, '=') == Some(i)
    ensures ParseLine(l) == Some(Entry(Strip(l[..i]), Strip(l[i + 1..])))
  {
  }

  /**
   * Any line `KEY=VALUE` with no `=` in KEY that is not a comment once stripped,
   * such as a line read from the file with its line break still on: the line
   * is stripped first, then split at its first `=`, and key and value are each
   * stripped again.
   */
  lemma ParseLineStrips(k: string, v: string)
    requires '=' !in k && (Strip(k) == [] || Strip(k)[0] != '#')
    ensures ParseLine(k + "=" + v) == Some(Entry(Strip(k), Strip(v)))
  {
    var a, b := StripParts(k, v);
    KeyNotComment(a, k);
    ParseParts(k + "=" + v, a, b);
  }

  /** Stripping `KEY=VALUE` keeps `=` and leaves a key `a` and a value `b` that strip as KEY and VALUE do. */
  lemma StripParts(k: string, v: string) returns (a: string, b: string)
    requires '=' !in k
    ensures Strip(k + "=" + v) == a + "=" + b
    ensures Strip(a) == Strip(k) && Strip(b) == Strip(v)
    ensures '=' !in a && (a == [] || a[0] !in PySpace)
  {
    assert '=' !in PySpace;
    a := TrimStart(k, PySpace);
    b := TrimEnd(v, PySpace);
    TrimConcat(k, '=', v, PySpace);
    TrimOfTrimStart(k, PySpace);
    TrimOfTrimEnd(v, PySpace);
    TrimStartWithout(k, '=', PySpace);
  }

  /** The key left after the leading space is dropped starts as the stripped key does. */
  lemma KeyNotComment(a: string, k: string)
    requires Strip(a) == Strip(k) && (Strip(k) == [] || Strip(k)[0] != '#')
    requires a == [] || a[0] !in PySpace
    ensures a == [] || a[0] != '#'
  {
    if a != [] {
      TrimKeepsFirst(a, PySpace);
    }
  }

  /** A line that strips to `a=b`, with no `=` in `a` and `a` no comment, parses to `a` and `b` stripped. */
  lemma ParseParts(line: string, a: string, b: string)
    requires Strip(line) == a + "=" + b
    requires '=' !in a && (a == [] || a[0] != '#')
    ensures ParseLine(line) == Some(Entry(Strip(a), Strip(b)))
  {
    ParseViaStrip(line);
    TrimIdempotent(line, PySpace);
    ParseKeyValue(a, b);
  }

  /** A line parses as its stripped form does. */
  lemma ParseViaStrip(line: string)
    ensures ParseLine(line) == ParseLine(Strip(line))
  {
    TrimIdempotent(line, PySpace);
  }

  /** A stripped `KEY=VALUE` with no `=` in KEY that is no comment splits into KEY and VALUE, each stripped. */
  lemma ParseKeyValue(a: string, b: string)
    requires '=' !in a && (a == [] || a[0] != '#')
    requires Strip(a + "=" + b) == a + "=" + b
    ensures ParseLine(a + "=" + b) == Some(Entry(Strip(a), Strip(b)))
  {
    var l := a + "=" + b;
    assert l[..|a|] == a && l[|a|] == '=' && l[|a| + 1..] == b;
    IndexOfAt(l, '=', |a|);
    ParseStripped(l, |a|);
  }

  /** The value of the last line that sets `key`, if any. */
  function LastValue(lines: seq<string>, key: string): Option<string> {
    if |lines| == 0 then None
    else
      var later := LastValue(lines[1..], key);
      if later.Some? then later
      else match ParseLine(lines[0])
        case Some(e) => if e.key == key then Some(e.value) else None
        case None => None
  }

  /** The value of the first line that sets `key`, if any. */
  function FirstValue(lines: seq<string>, key: string): Option<string> {
    if |lines| == 0 then None
    else match ParseLine(lines[0])
      case Some(e) => if e.key == key then Some(e.value) else FirstValue(lines[1..], key)
      case None => FirstValue(lines[1..], key)
  }

  /** One line as scripts/feishu/feishu_send.py stores it: `os.environ[k] = v`. */
  function AssignLine(env: Env, line: string): Env {
    match ParseLine(line)
    case Some(e) => env[e.key := e.value]
    case None => env
  }

  /** `load_env_file` of scripts/feishu/feishu_send.py: the lines applied in order, each assignment overwriting. */
  function LoadAssigning(env: Env, lines: seq<string>): Env
    decreases |lines|
  {
    if |lines| == 0 then env else LoadAssigning(AssignLine(env, lines[0]), lines[1..])
  }

  /**
   * With assignment, a variable ends up with the value of the last line
   * that sets it, and keeps its earlier value only when no line sets it.
   */
  lemma {:induction false} LoadAssigningLastWins(env: Env, lines: seq<string>, key: string)
    ensures Get(LoadAssigning(env, lines), key) ==
      if LastValue(lines, key).Some? then LastValue(lines, key) else Get(env, key)
    decreases |lines|
  {
    if |lines| > 0 {
      LoadAssigningLastWins(AssignLine(env, lines[0]), lines[1..], key);
    }
  }

  /** A `.env` value as tools/feishu_send_card.py stores it: all `"` then all `'` stripped from both ends. */
  function StripQuotes(v: string): (r: string)
    ensures r == [] || (r[0] != '\'' && r[|r| - 1] != '\'')
  {
    StripChar(StripChar(v, '"'), '\'')
  }

  /** Trimming one character `c` removes a single pair of `c` around a text whose ends are not `c`. */
  lemma TrimOnePair(w: string, c: char)
    requires w == [] || (w[0] != c && w[|w| - 1] != c)
    ensures Trim([c] + w + [c], {c}) == w
  {
    var s := [c] + w + [c];
    assert s[1..] == w + [c];
    if w == [] {
      assert TrimStart(s, {c}) == [];
    } else {
      assert (w + [c])[0] == w[0];
      assert TrimStart(s, {c}) == w + [c];
      assert (w + [c])[..|w|] == w;
      assert TrimEnd(w + [c], {c}) == w;
    }
  }

  /**
   * Quoting a value in the file, with double or single quotes, gives the value
   * back, provided the value itself does not start or end with a quote.
   */
  lemma StripQuotesRoundTrip(w: string)
    requires w == [] || (w[0] !in {'"', '\''} && w[|w| - 1] !in {'"', '\''})
    ensures StripQuotes("\"" + w + "\"") == w
    ensures StripQuotes("'" + w + "'") == w
  {
    TrimOnePair(w, '"');
    TrimUnchanged(w, {'\''});
    TrimUnchanged(w, {'"'});
    TrimOnePair(w, '\'');
    assert "\"" + w + "\"" == ['"'] + w + ['"'];
    assert "'" + w + "'" == ['\''] + w + ['\''];
    var single := ['\''] + w + ['\''];
    if w != [] {
      assert single[0] == '\'' && single[|single| - 1] == '\'';
    }
    TrimUnchanged(single, {'"'});
  }

  /** A value that neither starts nor ends with a quote is stored as it is. */
  lemma StripQuotesUnchanged(v: string)
    requires v == [] || (v[0] !in {'"', '\''} && v[|v| - 1] !in {'"', '\''})
    ensures StripQuotes(v) == v
  {
    TrimUnchanged(v, {'"'});
    TrimUnchanged(v, {'\''});
  }

  /** One line as tools/feishu_send_card.py stores it: `os.environ.setdefault(k, unquoted v)`. */
  function DefaultLine(env: Env, line: string): Env {
    match ParseLine(line)
    case Some(e) => if e.key in env then env else env[e.key := StripQuotes(e.value)]
    case None => env
  }

  /** The `.env` loop of `get_token` in tools/feishu_send_card.py: a variable already set is never changed. */
  function LoadKeeping(env: Env, lines: seq<string>): (r: Env)
    ensures env.Keys <= r.Keys
    ensures forall k :: k in env ==> r[k] == env[k]
    decreases |lines|
  {
    if |lines| == 0 then env else LoadKeeping(DefaultLine(env, lines[0]), lines[1..])
  }

  /**
   * With `setdefault`, a variable that was set keeps its value; one that was
   * not gets the unquoted value of the first line that sets it.
   */
  lemma {:induction false} LoadKeepingFirstWins(env: Env, lines: seq<string>, key: string)
    ensures Get(LoadKeeping(env, lines), key) ==
      if key in env then Some(env[key])
      else match FirstValue(lines, key)
        case Some(v) => Some(StripQuotes(v))
        case None => None
    decreases |lines|
  {
    if |lines| > 0 {
      LoadKeepingFirstWins(DefaultLine(env, lines[0]), lines[1..], key);
    }
  }
}

=== FILE: feishu_card.dfy ===
/**
 * tools/feishu_send_card.py: the credentials check of `get_token`, and
 * `send_card`, which numbers a list of items into markdown blocks separated
 * by `hr`, wraps them in a titled, coloured card and reads the message id
 * out of the send response.
 */
module FeishuCard {
  import opened Wrappers
  import opened Seqs
  import opened Strings
  import opened Json
  import opened Placeholders
  import opened EnvFile
  import opened CardLayout

  /** One entry of the items file. */
  datatype Item = Item(summary: string, insight: string, author: string, url: string)

  /** The ways `send_card` fails. */
  datatype CardError =
    | MissingCredentials       // the ValueError of `get_token`: app id or secret empty or unset
    | SendFailed(response: Json) // `code` is not 0; the error carries the whole response
    | MalformedResponse        // the response is not an object, or `data.message_id` is missing

  const AppIdVar := "FEISHU_MAIN_APP_ID"
  const AppSecretVar := "FEISHU_MAIN_APP_SECRET"
  const DefaultRecipientId := "ou_6a0198bf2e0cc783c612d115a9c936b8"
  const DefaultColor := "blue"

  /** A `color` argument left out falls back to the sender's default. */
  function ColorOr(color: Option<string>, default: string): string {
    if color.Some? then color.value else default
  }

  /** `os.environ.get(name, "")`. */
  function GetOrEmpty(env: Env, name: string): string {
    if name in env then env[name] else ""
  }

  /**
   * The check in `get_token`: after the `.env` lines are loaded without
   * overwriting, both the app id and the app secret must be non-empty.
   */
  function CardCredentials(env: Env, envLines: seq<string>): (r: Result<(string, string), CardError>)
    ensures r.Ok? <==>
      var e := LoadKeeping(env, envLines);
      AppIdVar in e && e[AppIdVar] != [] && AppSecretVar in e && e[AppSecretVar] != []
    ensures r.Ok? ==> r.value.0 != [] && r.value.1 != []
    ensures r.Err? ==> r.error == MissingCredentials
  {
    var e := LoadKeeping(env, envLines);
    var appId := GetOrEmpty(e, AppIdVar);
    var appSecret := GetOrEmpty(e, AppSecretVar);
    if appId == [] || appSecret == [] then Err(MissingCredentials) else Ok((appId, appSecret))
  }

  /** Credentials already set in the environment are used whatever the `.env` file says. */
  lemma SetCredentialsWin(env: Env, envLines: seq<string>)
    requires AppIdVar in env && env[AppIdVar] != [] && AppSecretVar in env && env[AppSecretVar] != []
    ensures CardCredentials(env, envLines) == Ok((env[AppIdVar], env[AppSecretVar]))
  {
  }

  /**
   * The recipient when `to` is empty or missing: `os.environ.get("FEISHU_DEFAULT_TO", <fixed id>)`.
   * A variable set to the empty string is returned as it is.
   */
  function DefaultRecipient(to: Option<string>, env: Env): (r: string)
    ensures to.Some? && to.value != [] ==> r == to.value
    ensures (to.None? || to.value == []) ==> r == (if DefaultToVar in env then env[DefaultToVar] else DefaultRecipientId)
  {
    if to.Some? && to.value != [] then to.value
    else if DefaultToVar in env then env[DefaultToVar]
    else DefaultRecipientId
  }

  /** The markdown of the item at 0-based position `i`. */
  function ItemMarkdown(i: nat, it: Item): string {
    "**" + NatToString(i + 1) + ".** " + it.summary
      + "\n\U{1F4A1} " + it.insight
      + "\n✍️ " + it.author + " → [原文](" + it.url + ")"
  }

  /** One group per item: its markdown block alone. */
  function ItemGroups(items: seq<Item>): (gs: seq<seq<Element>>)
    ensures |gs| == |items|
    ensures forall i :: 0 <= i < |items| ==> gs[i] == [Markdown(ItemMarkdown(i, items[i]))]
  {
    seq(|items|, i requires 0 <= i < |items| => [Markdown(ItemMarkdown(i, items[i]))])
  }

  /**
   * The card's elements: for n items none when n = 0, else 2n-1, with the
   * i-th item's markdown at position 2i and `hr` between consecutive items.
   */
  function CardElements(items: seq<Item>): (es: seq<Element>)
    ensures |items| == 0 ==> es == []
    ensures |items| > 0 ==> |es| == 2 * |items| - 1
    ensures forall i :: 0 <= i < |items| ==> 2 * i < |es| && es[2 * i] == Markdown(ItemMarkdown(i, items[i]))
    ensures forall i :: 0 <= i < |items| - 1 ==> es[2 * i + 1] == Hr
  {
    SeparatedSingletonsLength(items);
    SeparatedSingletons(items);
    Separated(ItemGroups(items))
  }

  lemma SeparatedSingletonsLength(items: seq<Item>)
    ensures |items| > 0 ==> |Separated(ItemGroups(items))| == 2 * |items| - 1
  {
    if |items| > 0 {
      JoinLengthUniform(ItemGroups(items), [Hr], 1);
    }
  }

  /** Where each block lands in a join of single-block groups. */
  lemma SeparatedSingletons(items: seq<Item>)
    ensures var es := Separated(ItemGroups(items));
      && (forall i :: 0 <= i < |items| ==> 2 * i < |es| && es[2 * i] == Markdown(ItemMarkdown(i, items[i])))
      && (forall i :: 0 <= i < |items| - 1 ==> 2 * i + 1 < |es| && es[2 * i + 1] == Hr)
  {
    SeparatedSingletonGroups(ItemGroups(items));
  }

  lemma {:induction false} SeparatedSingletonGroups(gs: seq<seq<Element>>)
    requires forall i :: 0 <= i < |gs| ==> |gs[i]| == 1
    ensures var es := Separated(gs);
      && (forall i :: 0 <= i < |gs| ==> 2 * i < |es| && es[2 * i] == gs[i][0])
      && (forall i :: 0 <= i < |gs| - 1 ==> 2 * i + 1 < |es| && es[2 * i + 1] == Hr)
    decreases |gs|
  {
    if |gs| > 1 {
      SeparatedSingletonGroups(gs[1..]);
      var tail := Separated(gs[1..]);
      var es := gs[0] + [Hr] + tail;
      assert Separated(gs) == es;
      forall i | 0 < i < |gs| ensures 2 * i < |es| && es[2 * i] == gs[i][0] {
        assert es[2 * i] == tail[2 * (i - 1)];
        assert gs[1..][i - 1] == gs[i];
      }
      forall i | 0 < i < |gs| - 1 ensures 2 * i + 1 < |es| && es[2 * i + 1] == Hr {
        assert es[2 * i + 1] == tail[2 * (i - 1) + 1];
      }
    }
  }

  /**
   * The element loop of `send_card` as written: an `hr` before every item but
   * the first, then the item's markdown.
   */
  method BuildElements(items: seq<Item>) returns (elements: seq<Element>)
    ensures elements == CardElements(items)
  {
    var gs := ItemGroups(items);
    elements := [];
    var i := 0;
    while i < |items|
      invariant 0 <= i <= |items|
      invariant elements == Separated(gs[..i])
    {
      if i > 0 {
        elements := elements + [Hr];
      }
      elements := elements + [Markdown(ItemMarkdown(i, items[i]))];
      assert gs[..i + 1] == gs[..i] + [gs[i]];
      if i > 0 {
        JoinSnoc(gs[..i], gs[i], [Hr]);
      }
      i := i + 1;
    }
    assert gs[..|items|] == gs;
  }

  /** The card's elements have no stray `hr`, and splitting them at `hr` gives one markdown block per item. */
  lemma CardElementsShape(items: seq<Item>)
    ensures NoStrayHr(CardElements(items))
    ensures |items| > 0 ==> Split(CardElements(items), Hr) == ItemGroups(items)
  {
    SeparatedShape(ItemGroups(items));
  }

  /** Distinct positions get distinct numbers: the label of block i reads back as i+1. */
  lemma ItemNumbering(i: nat, it: Item)
    ensures StartsWith(ItemMarkdown(i, it), "**" + NatToString(i + 1) + ".** ")
    ensures DecimalValue(NatToString(i + 1)) == i + 1
  {
    NatToStringRoundTrip(i + 1);
  }

  /**
   * `send_card(title, items, to, color)` up to the send request: the recipient
   * is settled from the environment as it is on entry, then the credentials
   * are checked against the environment with the `.env` lines loaded; the
   * message always names the recipient an open id.
   */
  function PrepareCard(title: string, items: seq<Item>, to: Option<string>, color: Option<string>,
                       env: Env, envLines: seq<string>): (r: Result<CardMessage, CardError>)
    ensures r.Err? <==> CardCredentials(env, envLines).Err?
    ensures r.Err? ==> r.error == MissingCredentials
    ensures r.Ok? ==>
      && r.value.card.header.title == title
      && (color.Some? ==> r.value.card.header.template == color.value)
      && (color.None? ==> r.value.card.header.template == "blue")
      && r.value.card.elements == CardElements(items)
      && r.value.receiveId == DefaultRecipient(to, env)
      && r.value.receiveIdType == "open_id"
      && r.value.msgType == "interactive"
  {
    var recipient := DefaultRecipient(to, env);
    match CardCredentials(env, envLines)
    case Err(e) => Err(e)
    case Ok(_) => Ok(CardMessage(recipient, "open_id", "interactive", Card(Header(title, ColorOr(color, DefaultColor)), CardElements(items))))
  }

  /**
   * The response check of `send_card`: a `code` other than 0 (Python equality,
   * so `0.0` and `false` also pass) fails with the whole response; otherwise
   * `data.message_id` is returned as it is. A response that is not an object,
   * or lacks `data.message_id`, raises in Python: `MalformedResponse` here.
   */
  function MessageIdOf(resp: Json): (r: Result<Json, CardError>)
    ensures resp.Obj? && !PyEqualsZero(Field(resp, "code")) ==> r == Err(SendFailed(resp))
    ensures r.Ok? <==>
      && PyEqualsZero(Field(resp, "code"))
      && Field(resp, "data").Some?
      && Field(Field(resp, "data").value, "message_id").Some?
    ensures r.Ok? ==> r.value == resp.fields["data"].fields["message_id"]
    ensures !resp.Obj? ==> r == Err(MalformedResponse)
    ensures resp.Obj? && PyEqualsZero(Field(resp, "code")) && r.Err? ==> r == Err(MalformedResponse)
  {
    if !resp.Obj? then Err(MalformedResponse)
    else if !PyEqualsZero(Field(resp, "code")) then Err(SendFailed(resp))
    else match Field(resp, "data")
      case None => Err(MalformedResponse)
      case Some(d) =>
        match Field(d, "message_id")
        case None => Err(MalformedResponse)
        case Some(m) => Ok(m)
  }

  /** A `code: 0` response yields its message id unchanged; a `code: 99` response fails carrying the response. */
  lemma ResponseExamples(m: Json, rest: map<string, Json>)
    ensures MessageIdOf(Obj(map["code" := Num(0.0), "data" := Obj(map["message_id" := m])])) == Ok(m)
    ensures MessageIdOf(Obj(rest["code" := Num(99.0)])) == Err(SendFailed(Obj(rest["code" := Num(99.0)])))
  {
    var ok := Obj(map["code" := Num(0.0), "data" := Obj(map["message_id" := m])]);
    assert Field(ok, "code") == Some(Num(0.0));
    assert Field(ok, "data") == Some(Obj(map["message_id" := m]));
    var bad := Obj(rest["code" := Num(99.0)]);
    assert Field(bad, "code") == Some(Num(99.0));
  }

  /**
   * `send_card` as it would read with the `.env` file loaded before the
   * default recipient is looked up, so that a `FEISHU_DEFAULT_TO` kept in that
   * file is honoured.
   */
  function PrepareCardEnvFirst(title: string, items: seq<Item>, to: Option<string>, color: Option<string>,
                               env: Env, envLines: seq<string>): (r: Result<CardMessage, CardError>)
    ensures r.Err? <==> CardCredentials(env, envLines).Err?
    ensures r.Ok? ==> r.value.receiveId == DefaultRecipient(to, LoadKeeping(env, envLines))
    ensures r.Ok? ==> r.value.card == PrepareCard(title, items, to, color, env, envLines).value.card
  {
    match CardCredentials(env, envLines)
    case Err(e) => Err(e)
    case Ok(_) =>
      var recipient := DefaultRecipient(to, LoadKeeping(env, envLines));
      Ok(CardMessage(recipient, "open_id", "interactive", Card(Header(title, ColorOr(color, DefaultColor)), CardElements(items))))
  }

  /** With the `.env` file read first, a default recipient set only in that file is the one used. */
  lemma EnvFileDefaultHonoured(items: seq<Item>, env: Env, envLines: seq<string>, id: string)
    requires DefaultToVar !in env
    requires FirstValue(envLines, DefaultToVar) == Some(id)
    requires CardCredentials(env, envLines).Ok?
    ensures PrepareCardEnvFirst("t", items, None, None, env, envLines).value.receiveId == StripQuotes(id)
  {
    LoadKeepingFirstWins(env, envLines, DefaultToVar);
  }

  /**
   * As written, the default recipient is read before `get_token` loads the
   * `.env` file: with `FEISHU_DEFAULT_TO` set only in that file, the card goes
   * to the fixed id, not to the one the file names.
   */
  lemma EnvFileDefaultIgnored(items: seq<Item>, env: Env, envLines: seq<string>, id: string)
    requires DefaultToVar !in env
    requires FirstValue(envLines, DefaultToVar) == Some(id)
    requires StripQuotes(id) != DefaultRecipientId
    requires CardCredentials(env, envLines).Ok?
    ensures PrepareCard("t", items, None, None, env, envLines).value.receiveId == DefaultRecipientId
    ensures PrepareCardEnvFirst("t", items, None, None, env, envLines).value.receiveId == StripQuotes(id)
    ensures PrepareCard("t", items, None, None, env, envLines)
         != PrepareCardEnvFirst("t", items, None, None, env, envLines)
  {
    EnvFileDefaultHonoured(items, env, envLines, id);
  }
}

=== FILE: feishu_send.dfy ===
/**
 * The decisions of scripts/feishu/feishu_send.py: which account's
 * credentials to use, who receives the message and with which id type,
 * whether the source goes out as a file or as an image, the name the image
 * is uploaded under, and when the image is re-encoded.
 */
module FeishuSend {
  import opened Wrappers
  import opened Seqs
  import opened Strings
  import opened Json
  import opened Placeholders
  import opened EnvFile

  type Bytes = seq<bv8>

  /** How the platform is told to read a receive id. */
  datatype IdType = OpenId | ChatId {
    /** The `receive_id_type` query value. */
    function Name(): string {
      match this
      case OpenId => "open_id"
      case ChatId => "chat_id"
    }
  }

  datatype Recipient = Recipient(id: string, idType: IdType)

  datatype Credentials = Credentials(appId: string, appSecret: string)

  /** The ways the script aborts before any message is sent. */
  datatype SendError =
    | NoAccount          // neither the named account nor "main" exists: `None["appId"]`
    | BadAccountEntry    // the account entry is not an object with string appId and appSecret
    | NoRecipient        // the ValueError of `resolve_receive_id`
    | BadAllowListEntry  // a non-string allow-list entry was reached: `uid.startswith` raises

  const MainAccount := "main"

  // ----- Credentials -----

  /**
   * `accounts.get(name) or accounts.get("main")`: the named account when it is
   * present and truthy, otherwise whatever "main" holds, if anything.
   */
  function SelectAccount(accounts: map<string, Json>, name: string): (r: Option<Json>)
    ensures name in accounts && PyTruthy(accounts[name]) ==> r == Some(accounts[name])
    ensures !(name in accounts && PyTruthy(accounts[name])) ==>
      r == (if MainAccount in accounts then Some(accounts[MainAccount]) else None)
  {
    if name in accounts && PyTruthy(accounts[name]) then Some(accounts[name])
    else if MainAccount in accounts then Some(accounts[MainAccount])
    else None
  }


  /** The account entry `load_credentials` reads, when it holds string `appId` and `appSecret`. */
  predicate UsableAccount(a: Option<Json>) {
    && a.Some?
    && Field(a.value, "appId").Some? && Field(a.value, "appId").value.Str?
    && Field(a.value, "appSecret").Some? && Field(a.value, "appSecret").value.Str?
  }

  /**
   * `load_credentials`: the `.env` lines are assigned into the environment,
   * the account is selected, and its `appId` and `appSecret` are expanded
   * against the resulting environment. It fails exactly when no account is
   * found or the entry found is unusable.
   */
  function LoadCredentials(env: Env, envLines: seq<string>, accounts: map<string, Json>, name: string)
    : (r: Result<Credentials, SendError>)
    ensures r == Err(NoAccount) <==> SelectAccount(accounts, name) == None
    ensures r.Ok? <==> UsableAccount(SelectAccount(accounts, name))
    ensures r.Ok? ==>
      var a := SelectAccount(accounts, name).value;
      var e := LoadAssigning(env, envLines);
      && r.value.appId == ExpandEnv(e, Field(a, "appId").value.s)
      && r.value.appSecret == ExpandEnv(e, Field(a, "appSecret").value.s)
  {
    var e := LoadAssigning(env, envLines);
    match SelectAccount(accounts, name)
    case None => Err(NoAccount)
    case Some(a) =>
      match (Field(a, "appId"), Field(a, "appSecret"))
      case (Some(Str(id)), Some(Str(secret))) => Ok(Credentials(ExpandEnv(e, id), ExpandEnv(e, secret)))
      case _ => Err(BadAccountEntry)
  }

  /**
   * An account name that is absent (a misspelling, say) silently yields the
   * "main" account's credentials.
   */
  lemma UnknownAccountFallsBackToMain(env: Env, envLines: seq<string>, accounts: map<string, Json>, name: string)
    requires name !in accounts
    ensures LoadCredentials(env, envLines, accounts, name) == LoadCredentials(env, envLines, accounts, MainAccount)
  {
  }

  /**
   * An `appId` written as `${X}` takes the value that the last `.env` line
   * setting `X` gives it; an `appSecret` without `$` is used verbatim.
   */
  lemma CredentialsFromEnvFile(env: Env, envLines: seq<string>, accounts: map<string, Json>, name: string,
                               x: string, secret: string)
    requires ValidName(x) && LastValue(envLines, x).Some? && '$' !in secret
    requires SelectAccount(accounts, name) == Some(Obj(map["appId" := Str("${" + x + "}"), "appSecret" := Str(secret)]))
    ensures LoadCredentials(env, envLines, accounts, name) == Ok(Credentials(LastValue(envLines, x).value, secret))
  {
    var e := LoadAssigning(env, envLines);
    var a := Obj(map["appId" := Str("${" + x + "}"), "appSecret" := Str(secret)]);
    assert Field(a, "appId") == Some(Str("${" + x + "}"));
    assert Field(a, "appSecret") == Some(Str(secret));
    LoadAssigningLastWins(env, envLines, x);
    assert x in e && e[x] == LastValue(envLines, x).value;
    SetPlaceholderReplaced(e, x, "");
    assert "${" + x + "}" + "" == "${" + x + "}";
    assert ExpandEnv(e, "${" + x + "}") == e[x];
    DollarFreeUnchanged(e, secret);
  }

  // ----- Recipient -----

  /** The prefix rule: `oc_` marks a group chat id, anything else is taken as a user's open id. */
  function Classify(id: string): (t: IdType)
    ensures t == ChatId <==> StartsWith(id, "oc_")
  {
    if StartsWith(id, "oc_") then ChatId else OpenId
  }

  /** An allow-list entry `resolve_receive_id` accepts: a string other than `*` that starts with `ou_`. */
  predicate Eligible(e: Json) {
    e.Str? && e.s != "*" && StartsWith(e.s, "ou_")
  }

  /**
   * The allow-list scan: the first eligible entry; an error when the list has
   * none, or when an entry that is not a string is reached first.
   */
  function FromAllowList(entries: seq<Json>): (r: Result<string, SendError>)
    ensures r.Ok? ==> Eligible(Str(r.value)) && Str(r.value) in entries
    ensures r == Err(NoRecipient) <==> forall k :: 0 <= k < |entries| ==> entries[k].Str? && !Eligible(entries[k])
    ensures r.Ok? || r == Err(NoRecipient) || r == Err(BadAllowListEntry)
  {
    if |entries| == 0 then Err(NoRecipient)
    else match entries[0]
      case Str(s) =>
        if s != "*" && StartsWith(s, "ou_") then Ok(s)
        else
          var r := FromAllowList(entries[1..]);
          assert forall k :: 1 <= k < |entries| ==> entries[k] == entries[1..][k - 1];
          r
      case _ => Err(BadAllowListEntry)
  }

  /**
   * The scan fails on a non-string entry exactly when such an entry comes
   * before any eligible one: `uid.startswith` is reached on it.
   */
  lemma {:induction false} FromAllowListBadEntry(entries: seq<Json>)
    ensures FromAllowList(entries) == Err(BadAllowListEntry) <==>
      exists i :: 0 <= i < |entries| && !entries[i].Str? && BeforeIneligible(entries, i)
    decreases |entries|
  {
    if |entries| > 0 {
      if !entries[0].Str? {
        assert BeforeIneligible(entries, 0);
      } else if Eligible(entries[0]) {
        forall i | 0 < i < |entries| ensures !BeforeIneligible(entries, i) {
          assert !(entries[0].Str? && !Eligible(entries[0]));
        }
      } else {
        var tail := entries[1..];
        FromAllowListBadEntry(tail);
        if FromAllowList(tail) == Err(BadAllowListEntry) {
          var i :| 0 <= i < |tail| && !tail[i].Str? && BeforeIneligible(tail, i);
          assert entries[i + 1] == tail[i];
          assert BeforeIneligible(entries, i + 1) by {
            forall j | 0 <= j < i + 1 ensures entries[j].Str? && !Eligible(entries[j]) {
              if j > 0 {
                assert entries[j] == tail[j - 1];
              }
            }
          }
        } else {
          forall i | 0 <= i < |entries| && !entries[i].Str? ensures !BeforeIneligible(entries, i) {
            assert i > 0 && entries[i] == tail[i - 1];
            if BeforeIneligible(entries, i) {
              assert BeforeIneligible(tail, i - 1) by {
                forall j | 0 <= j < i - 1 ensures tail[j].Str? && !Eligible(tail[j]) {
                  assert tail[j] == entries[j + 1];
                }
              }
            }
          }
        }
      }
    }
  }

  /** Every entry before position `i` is a string the scan passes over. */
  predicate BeforeIneligible(entries: seq<Json>, i: nat)
    requires i <= |entries|
  {
    forall j :: 0 <= j < i ==> entries[j].Str? && !Eligible(entries[j])
  }

  /** The first eligible entry is chosen when every entry before it is a string that is not eligible. */
  lemma {:induction false} FromAllowListFirst(entries: seq<Json>, i: nat)
    requires i < |entries| && Eligible(entries[i])
    requires forall j :: 0 <= j < i ==> entries[j].Str? && !Eligible(entries[j])
    ensures FromAllowList(entries) == Ok(entries[i].s)
    decreases i
  {
    if i > 0 {
      FromAllowListFirst(entries[1..], i - 1);
    }
  }

  /**
   * `resolve_receive_id(to)`: a non-empty `to`, else a non-empty
   * `FEISHU_DEFAULT_TO`, each classified by prefix, else the allow-list entry,
   * always an open id.
   */
  function ResolveReceiveId(to: Option<string>, env: Env, allowFrom: seq<Json>): (r: Result<Recipient, SendError>)
    ensures to.Some? && to.value != [] ==> r == Ok(Recipient(to.value, Classify(to.value)))
    ensures (to.None? || to.value == []) && DefaultToVar in env && env[DefaultToVar] != [] ==>
      r == Ok(Recipient(env[DefaultToVar], Classify(env[DefaultToVar])))
    ensures (to.None? || to.value == []) && (DefaultToVar !in env || env[DefaultToVar] == []) ==>
      match FromAllowList(allowFrom)
      case Ok(id) => r == Ok(Recipient(id, OpenId))
      case Err(e) => r == Err(e)
  {
    if to.Some? && to.value != [] then Ok(Recipient(to.value, Classify(to.value)))
    else if DefaultToVar in env && env[DefaultToVar] != [] then
      var t := env[DefaultToVar];
      Ok(Recipient(t, Classify(t)))
    else match FromAllowList(allowFrom)
      case Ok(id) => Ok(Recipient(id, OpenId))
      case Err(e) => Err(e)
  }

  /**
   * Whichever source the recipient comes from, its id type is the one the
   * prefix rule gives: an allow-list `ou_` entry is never a chat id.
   */
  lemma ResolvedTypeFollowsPrefix(to: Option<string>, env: Env, allowFrom: seq<Json>)
    ensures var r := ResolveReceiveId(to, env, allowFrom);
      r.Ok? ==> r.value.idType == Classify(r.value.id) && r.value.id != []
  {
    var r := ResolveReceiveId(to, env, allowFrom);
    if r.Ok? && (to.None? || to.value == []) && (DefaultToVar !in env || env[DefaultToVar] == []) {
      var id := FromAllowList(allowFrom).value;
      assert StartsWith(id, "ou_");
      assert id[1] == 'u';
      assert !StartsWith(id, "oc_");
    }
  }

  /** With no `to` and no default, the allow-list `["*", "ou_123"]` resolves to the user `ou_123`. */
  lemma AllowListSkipsWildcard(env: Env)
    requires DefaultToVar !in env
    ensures ResolveReceiveId(None, env, [Str("*"), Str("ou_123")]) == Ok(Recipient("ou_123", OpenId))
  {
    FromAllowListFirst([Str("*"), Str("ou_123")], 1);
  }

  // ----- Paths and file mode -----

  /** Python's `Path(p).name`, taken as the text after the last `/`. */
  function BaseName(p: string): (r: string)
    ensures '/' !in r && |r| <= |p| && r == p[|p| - |r|..]
    ensures |r| < |p| ==> p[|p| - |r| - 1] == '/'
  {
    match LastIndexOf(p, '/')
    case None => p
    case Some(i) => p[i + 1..]
  }

  /** Where the suffix of a name starts: at its last `.`, unless that is the first or the last character. */
  function SuffixStart(name: string): (r: Option<nat>)
    ensures r.Some? ==> 0 < r.value < |name| - 1 && name[r.value] == '.' && '.' !in name[r.value + 1..]
  {
    match LastIndexOf(name, '.')
    case Some(i) => if 0 < i < |name| - 1 then Some(i) else None
    case None => None
  }

  /** Python's `Path(name).suffix` (up to Python 3.13) for a name without `/`. */
  function Suffix(name: string): string {
    match SuffixStart(name)
    case Some(i) => name[i..]
    case None => ""
  }

  /** Python's `Path(name).stem` (up to Python 3.13) for a name without `/`. */
  function Stem(name: string): string {
    match SuffixStart(name)
    case Some(i) => name[..i]
    case None => name
  }

  /** A name is its stem followed by its suffix. */
  lemma StemSuffixSplit(name: string)
    ensures Stem(name) + Suffix(name) == name
  {
  }

  /** A non-empty stem with `.jpg` appended has suffix `.jpg` and gives the stem back. */
  lemma JpgRename(stem: string)
    requires stem != [] && '/' !in stem
    ensures Suffix(stem + ".jpg") == ".jpg"
    ensures Stem(stem + ".jpg") == stem
  {
    var n := stem + ".jpg";
    assert n[|stem|] == '.' && n[|stem| + 1..] == "jpg";
    LastIndexOfAt(n, '.', |stem|);
  }

  const ImageExts: set<string> := {".jpg", ".jpeg", ".png", ".gif", ".webp", ".bmp", ".ico", ".tiff"}

  /** `source.startswith("http://") or source.startswith("https://")`. */
  predicate IsUrl(source: string) {
    StartsWith(source, "http://") || StartsWith(source, "https://")
  }

  /**
   * The test in `main`: a source is sent as a file when `--file` is given, or
   * when it is local and its lower-cased suffix is non-empty and not an
   * image extension. A URL is sent as an image unless `--file` is given.
   */
  function IsFileMode(forceFile: bool, source: string): (r: bool)
    ensures forceFile ==> r
    ensures IsUrl(source) ==> (r <==> forceFile)
    ensures !IsUrl(source) ==>
      (r <==> forceFile || (Suffix(BaseName(source)) != [] && AsciiLower(Suffix(BaseName(source))) !in ImageExts))
  {
    var isLocal := !IsUrl(source);
    var ext := if isLocal then AsciiLower(Suffix(BaseName(source))) else "";
    forceFile || (isLocal && ext != [] && ext !in ImageExts)
  }

  /** The name of `DIR/F` is `F`. */
  lemma BaseNameAfterSlash(dir: string, f: string)
    requires '/' !in f
    ensures BaseName(dir + "/" + f) == f
  {
    var p := dir + "/" + f;
    assert p[|dir|] == '/' && p[|dir| + 1..] == f;
    LastIndexOfAt(p, '/', |dir|);
  }

  /** The suffix of `NAME.EXT` (NAME and EXT non-empty, without `.`) is `.EXT`. */
  lemma SuffixAfterDot(name: string, ext: string)
    requires name != [] && '.' !in name && ext != [] && '.' !in ext
    ensures Suffix(name + "." + ext) == "." + ext
  {
    var f := name + "." + ext;
    assert f[|name|] == '.' && f[|name| + 1..] == ext && f[|name|..] == "." + ext;
    SuffixAt(f, |name|);
  }

  /** A `.` strictly inside a name, with no `.` after it, starts the suffix. */
  lemma SuffixAt(f: string, i: nat)
    requires 0 < i < |f| - 1 && f[i] == '.' && '.' !in f[i + 1..]
    ensures Suffix(f) == f[i..]
  {
    LastIndexOfAt(f, '.', i);
  }

  /** A local `DIR/NAME.EXT` goes out as a file exactly when the lower-cased `.EXT` is not an image extension. */
  lemma FileModeByExtension(dir: string, name: string, ext: string)
    requires name != [] && '/' !in name && '.' !in name
    requires ext != [] && '/' !in ext && '.' !in ext
    requires !IsUrl(dir + "/" + (name + "." + ext))
    ensures IsFileMode(false, dir + "/" + (name + "." + ext)) <==> AsciiLower("." + ext) !in ImageExts
  {
    assert '/' !in name + "." + ext;
    BaseNameAfterSlash(dir, name + "." + ext);
    SuffixAfterDot(name, ext);
  }

  // ----- Image name and compression -----

  const DefaultImageName := "image.jpg"

  /** The text before the first `?`: `s.split("?")[0]`. */
  function BeforeQuery(s: string): (r: string)
    ensures '?' !in r && |r| <= |s| && r == s[..|r|]
    ensures |r| < |s| ==> s[|r|] == '?'
  {
    match IndexOf(s, '?')
    case None => s
    case Some(i) => s[..i]
  }

  /**
   * `load_image`'s file name: for a URL the last `/`-separated part up to
   * any `?`, or `image.jpg` when that is empty; for a local path its name.
   */
  function SourceFilename(source: string): (r: string)
    ensures IsUrl(source) ==> r != [] && '/' !in r && '?' !in r
    ensures !IsUrl(source) ==> r == BaseName(source)
  {
    if IsUrl(source) then
      var f := BeforeQuery(BaseName(source));
      if f == [] then DefaultImageName else f
    else BaseName(source)
  }

  /** A URL ending in `/NAME` (NAME without `?`) is uploaded as NAME. */
  lemma UrlFilenameRoundTrip(base: string, name: string)
    requires IsUrl(base) && name != [] && '/' !in name && '?' !in name
    ensures SourceFilename(base + "/" + name) == name
  {
    var u := base + "/" + name;
    assert u[..|base|] == base;
    assert u[|base|] == '/' && u[|base| + 1..] == name;
    LastIndexOfAt(u, '/', |base|);
    assert BaseName(u) == name;
    assert IndexOf(name, '?').None?;
  }

  /** A URL ending in `/NAME?QUERY` (NAME without `?`, QUERY without `/`) is uploaded as NAME: the query is dropped. */
  lemma UrlQueryDropped(base: string, name: string, query: string)
    requires IsUrl(base) && name != [] && '/' !in name && '?' !in name && '/' !in query
    ensures SourceFilename(base + "/" + (name + "?" + query)) == name
  {
    var nq := name + "?" + query;
    NoSlashInQuery(name, query);
    BaseNameAfterSlash(base, nq);
    UrlExtended(base, nq);
    QueryCut(name, query);
    UrlNamed(base + "/" + nq, name);
  }

  lemma NoSlashInQuery(name: string, query: string)
    requires '/' !in name && '/' !in query
    ensures '/' !in name + "?" + query
  {
    assert name + "?" + query == name + ("?" + query);
  }

  /** A URL followed by more path is still a URL. */
  lemma UrlExtended(base: string, f: string)
    requires IsUrl(base)
    ensures IsUrl(base + "/" + f)
  {
    assert (base + "/" + f)[..|base|] == base;
  }

  /** A URL whose last part, cut at its query, is a non-empty `f` is uploaded as `f`. */
  lemma UrlNamed(u: string, f: string)
    requires IsUrl(u) && BeforeQuery(BaseName(u)) == f && f != []
    ensures SourceFilename(u) == f
  {
  }

  /** Cutting `NAME?QUERY` at its first `?` leaves NAME. */
  lemma QueryCut(name: string, query: string)
    requires '?' !in name
    ensures BeforeQuery(name + "?" + query) == name
  {
    var nq := name + "?" + query;
    assert nq[|name|] == '?' && nq[..|name|] == name;
    IndexOfAt(nq, '?', |name|);
  }

  /** A URL ending in `/` is uploaded as `image.jpg`. */
  lemma UrlWithoutNameUsesDefault(base: string)
    requires IsUrl(base)
    ensures SourceFilename(base + "/") == DefaultImageName
  {
    var u := base + "/";
    assert u[..|base|] == base;
    LastIndexOfAt(u, '/', |base|);
  }

  /**
   * `compress_image(image_bytes, filename, max_size_kb)`, with the image
   * library's output as the parameter `jpeg` (`None` when the library cannot
   * be imported). Within the threshold, or without the library, bytes and
   * name pass through; otherwise the re-encoded bytes go out under the
   * stem's name with `.jpg`.
   */
  function CompressImage(data: Bytes, filename: string, maxSizeKb: int, jpeg: Option<Bytes>): (r: (Bytes, string))
    ensures |data| <= maxSizeKb * 1024 ==> r == (data, filename)
    ensures jpeg.None? ==> r == (data, filename)
    ensures |data| > maxSizeKb * 1024 && jpeg.Some? ==> r == (jpeg.value, Stem(BaseName(filename)) + ".jpg")
  {
    if jpeg.None? then (data, filename)
    else if (|data| as real) / 1024.0 <= maxSizeKb as real then (data, filename)
    else (jpeg.value, Stem(BaseName(filename)) + ".jpg")
  }

  /** The threshold `compress_image` is called with when uploading: 3072 KB. */
  const DefaultMaxSizeKb := 3072

  /** At the upload threshold an image of up to 3 MiB goes out as it is, and a larger one is re-encoded when it can be. */
  lemma DefaultThreshold(data: Bytes, filename: string, jpeg: Option<Bytes>)
    ensures |data| <= 3145728 ==> CompressImage(data, filename, DefaultMaxSizeKb, jpeg) == (data, filename)
    ensures |data| > 3145728 && jpeg.Some? ==> CompressImage(data, filename, DefaultMaxSizeKb, jpeg).0 == jpeg.value
  {
  }

  /**
   * A re-encoded image keeps its stem and is then recognised as an image, so
   * compressing its output again (when still too large) keeps the same name.
   */
  lemma CompressedNameIsImage(data: Bytes, filename: string, maxSizeKb: int, jpeg: Bytes)
    requires |data| > maxSizeKb * 1024 && Stem(BaseName(filename)) != []
    ensures var name := CompressImage(data, filename, maxSizeKb, Some(jpeg)).1;
      && Stem(name) == Stem(BaseName(filename))
      && !IsFileMode(false, name)
      && (|jpeg| > maxSizeKb * 1024 ==> CompressImage(jpeg, name, maxSizeKb, Some(jpeg)).1 == name)
  {
    var stem := Stem(BaseName(filename));
    assert '/' !in stem;
    JpgNameIsImage(stem);
  }

  /** `STEM.jpg` is its own name, keeps STEM as its stem, and is sent as an image. */
  lemma JpgNameIsImage(stem: string)
    requires stem != [] && '/' !in stem
    ensures BaseName(stem + ".jpg") == stem + ".jpg"
    ensures Stem(stem + ".jpg") == stem
    ensures !IsFileMode(false, stem + ".jpg")
  {
    JpgRename(stem);
    var name := stem + ".jpg";
    assert '/' !in name;
    assert BaseName(name) == name;
    assert AsciiLower(".jpg") == ".jpg";
  }

  // ----- main -----

  /** What `main` settles before anything is sent: the credentials, the recipient, and file or image mode. */
  datatype Plan = Plan(credentials: Credentials, recipient: Recipient, asFile: bool)

  /**
   * `main` up to the first request: `load_credentials` (which also assigns the
   * `.env` lines into the environment), then `resolve_receive_id` against that
   * environment, then the file-mode test. A credentials failure is reported
   * before a recipient failure.
   */
  function PlanSend(env: Env, envLines: seq<string>, accounts: map<string, Json>, account: string,
                    to: Option<string>, allowFrom: seq<Json>, forceFile: bool, source: string)
    : (r: Result<Plan, SendError>)
    ensures LoadCredentials(env, envLines, accounts, account).Err? ==>
      r == Err(LoadCredentials(env, envLines, accounts, account).error)
    ensures r.Ok? <==>
      LoadCredentials(env, envLines, accounts, account).Ok? && ResolveReceiveId(to, LoadAssigning(env, envLines), allowFrom).Ok?
    ensures r.Ok? ==>
      && r.value.credentials == LoadCredentials(env, envLines, accounts, account).value
      && r.value.recipient == ResolveReceiveId(to, LoadAssigning(env, envLines), allowFrom).value
      && r.value.asFile == IsFileMode(forceFile, source)
  {
    match LoadCredentials(env, envLines, accounts, account)
    case Err(e) => Err(e)
    case Ok(c) =>
      match ResolveReceiveId(to, LoadAssigning(env, envLines), allowFrom)
      case Err(e) => Err(e)
      case Ok(rcp) => Ok(Plan(c, rcp, IsFileMode(forceFile, source)))
  }

  /**
   * Because the `.env` file is loaded before the recipient is resolved, a
   * non-empty `FEISHU_DEFAULT_TO` in that file (its last setting) names the
   * recipient when no `--to` is given, and it overrides the variable's value
   * on entry.
   */
  lemma EnvFileDefaultUsed(env: Env, envLines: seq<string>, accounts: map<string, Json>, account: string,
                           to: Option<string>, allowFrom: seq<Json>, forceFile: bool, source: string, v: string)
    requires to.None? || to.value == []
    requires LastValue(envLines, DefaultToVar) == Some(v) && v != []
    requires LoadCredentials(env, envLines, accounts, account).Ok?
    ensures PlanSend(env, envLines, accounts, account, to, allowFrom, forceFile, source).Ok?
    ensures PlanSend(env, envLines, accounts, account, to, allowFrom, forceFile, source).value.recipient ==
      Recipient(v, Classify(v))
  {
    LoadAssigningLastWins(env, envLines, DefaultToVar);
  }
}

=== FILE: json.dfy ===
/**
 * A JSON value as the scripts receive it from `json.load` (Python) or
 * `JSON.parse` (JavaScript), and the two languages' notions of "truthy" and
 * property access that the scripts' branches depend on. Numbers are reals,
 * so `0`, `0.0` and `0.5` are told apart exactly as both languages do.
 */
module Json {
  import opened Wrappers

  datatype Json =
    | Null
    | Bool(b: bool)
    | Num(n: real)
    | Str(s: string)
    | Arr(items: seq<Json>)
    | Obj(fields: map<string, Json>)

  /**
   * JavaScript's `v.key` / Python's `v.get(key)` on a parsed value: the field
   * when `v` is an object holding `key`, otherwise absent (`undefined` / `None`).
   */
  function Field(v: Json, key: string): (r: Option<Json>)
    ensures r.Some? <==> v.Obj? && key in v.fields
    ensures r.Some? ==> r.value == v.fields[key]
  {
    if v.Obj? && key in v.fields then Some(v.fields[key]) else None
  }

  /** JavaScript truthiness of a property read; an absent property is `undefined`, which is falsy. */
  predicate JsTruthy(v: Option<Json>) {
    match v
    case None => false
    case Some(Null) => false
    case Some(Bool(b)) => b
    case Some(Num(n)) => n != 0.0
    case Some(Str(s)) => s != ""
    case Some(Arr(_)) => true
    case Some(Obj(_)) => true
  }

  /** Python truthiness of a parsed value (`bool(v)`): empty containers and strings, zero, `False` and `None` are falsy. */
  predicate PyTruthy(v: Json) {
    match v
    case Null => false
    case Bool(b) => b
    case Num(n) => n != 0.0
    case Str(s) => s != ""
    case Arr(xs) => |xs| > 0
    case Obj(m) => |m| > 0
  }

  /** Python's `v == 0` on a parsed value or an absent one (`None`): true for `0`, `0.0` and `False`. */
  predicate PyEqualsZero(v: Option<Json>) {
    v == Some(Num(0.0)) || v == Some(Bool(false))
  }
}

=== FILE: placeholders.dfy ===
/**
 * `expand_env` of scripts/feishu/feishu_send.py: every match of the pattern
 * `[$][{]([^}]+)[}]`, scanned left to right without overlap, is replaced by
 * the environment's value for the captured name, or left as it is when the
 * name is not set.
 */
module Placeholders {
  import opened Wrappers
  import opened Seqs

  /** Variable name to value, as `os.environ` holds them. */
  type Env = map<string, string>

  /** A piece of a template: one literal character, or one `${NAME}` placeholder. */
  datatype Token = Lit(c: char) | Placeholder(name: string)

  /** A placeholder name the pattern can capture: non-empty and free of `}`. */
  predicate ValidName(n: string) {
    n != [] && '}' !in n
  }

  /**
   * The name captured when the pattern matches at the start of `s`: `${`,
   * then one or more characters up to the first `}`, then that `}`.
   */
  function PlaceholderAt(s: string): (r: Option<string>)
    ensures r.Some? ==> ValidName(r.value) && |r.value| + 3 <= |s| && s[..|r.value| + 3] == "${" + r.value + "}"
  {
    if |s| >= 2 && s[0] == '$' && s[1] == '{' then
      match IndexOf(s[2..], '}')
      case Some(j) => if j > 0 then Some(s[2..2 + j]) else None
      case None => None
    else None
  }

  /** The pattern matches a `${NAME}` with a valid name at the start of any text. */
  lemma PlaceholderAtMatches(n: string, rest: string)
    requires ValidName(n)
    ensures PlaceholderAt("${" + n + "}" + rest) == Some(n)
  {
    var s := "${" + n + "}" + rest;
    assert s[2..] == n + "}" + rest;
    assert (n + "}" + rest)[|n|] == '}';
    assert (n + "}" + rest)[..|n|] == n;
    assert IndexOf(s[2..], '}') == Some(|n|);
    assert s[2..2 + |n|] == n;
  }

  /** `${}` has an empty name, which the pattern never captures. */
  lemma EmptyNameNotPlaceholder(rest: string)
    ensures PlaceholderAt("${}" + rest) == None
  {
    var s := "${}" + rest;
    assert s[2..][0] == '}';
  }

  /** The text cut into tokens the way the substitution scans it. */
  function Tokenize(s: string): seq<Token>
    decreases |s|
  {
    if |s| == 0 then []
    else match PlaceholderAt(s)
      case Some(n) => [Placeholder(n)] + Tokenize(s[|n| + 3..])
      case None => [Lit(s[0])] + Tokenize(s[1..])
  }

  /** Every placeholder the scan cuts out has a name the pattern can capture. */
  lemma {:induction false} TokenNamesValid(s: string)
    ensures forall k :: 0 <= k < |Tokenize(s)| && Tokenize(s)[k].Placeholder? ==> ValidName(Tokenize(s)[k].name)
    decreases |s|
  {
    if |s| > 0 {
      match PlaceholderAt(s)
      case Some(n) => TokenNamesValid(s[|n| + 3..]);
      case None => TokenNamesValid(s[1..]);
    }
  }

  /** The text a token was cut from. */
  function Source(t: Token): string {
    match t
    case Lit(c) => [c]
    case Placeholder(n) => "${" + n + "}"
  }

  /** What a token becomes: a set variable's value for a placeholder, otherwise the token's own text. */
  function Substitute(env: Env, t: Token): string {
    match t
    case Placeholder(n) => if n in env then env[n] else Source(t)
    case Lit(_) => Source(t)
  }

  function Render(ts: seq<Token>): string {
    if |ts| == 0 then "" else Source(ts[0]) + Render(ts[1..])
  }

  function Expand(env: Env, ts: seq<Token>): string {
    if |ts| == 0 then "" else Substitute(env, ts[0]) + Expand(env, ts[1..])
  }

  /** The placeholder names a text refers to. */
  function Names(ts: seq<Token>): set<string> {
    set k | 0 <= k < |ts| && ts[k].Placeholder? :: ts[k].name
  }

  /** `expand_env(value)` against the environment `env`. */
  function ExpandEnv(env: Env, s: string): string
    decreases |s|
  {
    if |s| == 0 then ""
    else match PlaceholderAt(s)
      case Some(n) => (if n in env then env[n] else s[..|n| + 3]) + ExpandEnv(env, s[|n| + 3..])
      case None => [s[0]] + ExpandEnv(env, s[1..])
  }

  /** Cutting a text into tokens loses nothing: the tokens spell the text. */
  lemma {:induction false} RenderTokenize(s: string)
    ensures Render(Tokenize(s)) == s
    decreases |s|
  {
    if |s| > 0 {
      match PlaceholderAt(s)
      case Some(n) =>
        var rest := s[|n| + 3..];
        assert Render(Tokenize(rest)) == rest by {
          RenderTokenize(rest);
        }
        assert Render(Tokenize(s)) == s[..|n| + 3] + Render(Tokenize(rest)) by {
          assert Tokenize(s) == [Placeholder(n)] + Tokenize(rest);
          assert ([Placeholder(n)] + Tokenize(rest))[1..] == Tokenize(rest);
        }
        assert s == s[..|n| + 3] + rest;
      case None =>
        assert Render(Tokenize(s[1..])) == s[1..] by {
          RenderTokenize(s[1..]);
        }
        assert Render(Tokenize(s)) == [s[0]] + Render(Tokenize(s[1..])) by {
          assert Tokenize(s) == [Lit(s[0])] + Tokenize(s[1..]);
          assert ([Lit(s[0])] + Tokenize(s[1..]))[1..] == Tokenize(s[1..]);
        }
        assert s == [s[0]] + s[1..];
    }
  }

  /**
   * The expansion is the token-wise substitution: literal characters pass
   * through unchanged, each placeholder is replaced on its own.
   */
  lemma {:induction false} ExpandEnvIsSubstitution(env: Env, s: string)
    ensures ExpandEnv(env, s) == Expand(env, Tokenize(s))
    decreases |s|
  {
    if |s| > 0 {
      match PlaceholderAt(s)
      case Some(n) =>
        ExpandEnvIsSubstitution(env, s[|n| + 3..]);
        assert ([Placeholder(n)] + Tokenize(s[|n| + 3..]))[1..] == Tokenize(s[|n| + 3..]);
      case None =>
        ExpandEnvIsSubstitution(env, s[1..]);
        assert ([Lit(s[0])] + Tokenize(s[1..]))[1..] == Tokenize(s[1..]);
    }
  }

  /** Substitution with none of the names set reproduces the tokens' text. */
  lemma {:induction false} ExpandUnsetIsRender(env: Env, ts: seq<Token>)
    requires Names(ts) !! env.Keys
    ensures Expand(env, ts) == Render(ts)
    decreases |ts|
  {
    if |ts| > 0 {
      assert Names(ts[1..]) <= Names(ts) by {
        forall x | x in Names(ts[1..]) ensures x in Names(ts) {
          var k :| 0 <= k < |ts[1..]| && ts[1..][k].Placeholder? && ts[1..][k].name == x;
          assert ts[k + 1] == ts[1..][k];
        }
      }
      if ts[0].Placeholder? {
        assert ts[0].name in Names(ts);
      }
      ExpandUnsetIsRender(env, ts[1..]);
    }
  }

  /**
   * A placeholder whose name is not set is left literally in place: when no
   * name the text refers to is set, expansion returns the text unchanged.
   */
  lemma UnsetPlaceholdersKept(env: Env, s: string)
    requires Names(Tokenize(s)) !! env.Keys
    ensures ExpandEnv(env, s) == s
  {
    ExpandEnvIsSubstitution(env, s);
    ExpandUnsetIsRender(env, Tokenize(s));
    RenderTokenize(s);
  }

  /** A placeholder whose name is set is replaced by the value, and the scan resumes right after its `}`. */
  lemma SetPlaceholderReplaced(env: Env, n: string, rest: string)
    requires ValidName(n) && n in env
    ensures ExpandEnv(env, "${" + n + "}" + rest) == env[n] + ExpandEnv(env, rest)
  {
    var s := "${" + n + "}" + rest;
    PlaceholderAtMatches(n, rest);
    assert s[|n| + 3..] == rest;
  }

  /** A placeholder whose name is not set stays as written, and the scan resumes right after its `}`. */
  lemma UnsetPlaceholderKept(env: Env, n: string, rest: string)
    requires ValidName(n) && n !in env
    ensures ExpandEnv(env, "${" + n + "}" + rest) == "${" + n + "}" + ExpandEnv(env, rest)
  {
    var s := "${" + n + "}" + rest;
    PlaceholderAtMatches(n, rest);
    assert s[|n| + 3..] == rest;
  }

  /** `${}` is never a placeholder: its three characters are copied and the scan goes on. */
  lemma EmptyNameKept(env: Env, rest: string)
    ensures ExpandEnv(env, "${}" + rest) == "${}" + ExpandEnv(env, rest)
  {
    EmptyNameDollar(env, rest);
    LiteralPrefixKept(env, "{}", rest);
    DollarBraces(ExpandEnv(env, "${}" + rest), ExpandEnv(env, "{}" + rest), ExpandEnv(env, rest));
  }

  lemma DollarBraces(x: string, y: string, z: string)
    requires x == "$" + y && y == "{}" + z
    ensures x == "${}" + z
  {
    assert "$" + ("{}" + z) == "${}" + z;
  }

  /** The `$` of `${}` is copied on its own. */
  lemma EmptyNameDollar(env: Env, rest: string)
    ensures ExpandEnv(env, "${}" + rest) == "$" + ExpandEnv(env, "{}" + rest)
  {
    var s := "${}" + rest;
    EmptyNameNotPlaceholder(rest);
    LiteralStep(env, s);
    assert s[0] == '$' && s[1..] == "{}" + rest;
  }

  /** A character that does not start a placeholder is copied, and the scan moves on by one. */
  lemma LiteralStep(env: Env, s: string)
    requires |s| > 0
    requires s[0] != '$' || PlaceholderAt(s).None?
    ensures ExpandEnv(env, s) == [s[0]] + ExpandEnv(env, s[1..])
  {
  }

  /** Text before the first `$` is copied unchanged; the rest is expanded on its own. */
  lemma {:induction false} LiteralPrefixKept(env: Env, p: string, s: string)
    requires '$' !in p
    ensures ExpandEnv(env, p + s) == p + ExpandEnv(env, s)
    decreases |p|
  {
    if |p| > 0 {
      var ps := p + s;
      assert ps[0] == p[0] && ps[0] != '$' && ps[1..] == p[1..] + s;
      LiteralStep(env, ps);
      LiteralPrefixKept(env, p[1..], s);
      PrefixStep(ExpandEnv(env, ps), ExpandEnv(env, p[1..] + s), p, ExpandEnv(env, s));
    } else {
      assert p + s == s;
    }
  }

  lemma PrefixStep(x: string, y: string, p: string, e: string)
    requires |p| > 0 && x == [p[0]] + y && y == p[1..] + e
    ensures x == p + e
  {
    assert p == [p[0]] + p[1..];
  }

  /** A text without `$` comes back unchanged. */
  lemma DollarFreeUnchanged(env: Env, s: string)
    requires '$' !in s
    ensures ExpandEnv(env, s) == s
  {
    LiteralPrefixKept(env, s, "");
    assert s + "" == s;
  }
}

=== FILE: seqs.dfy ===
/**
 * Generic sequence operations: searching for an element, joining parts with
 * a separator and splitting at a separator. Python's `str.join` / `str.split`
 * with a one-character separator, JavaScript's `Array.join` / `String.split`
 * and the "append a separator between entries" loops of the card builders
 * are all instances of these.
 */
module Seqs {
  import opened Wrappers

  /** Index of the first occurrence of `x` in `s`. */
  function IndexOf<T(==)>(s: seq<T>, x: T): (r: Option<nat>)
    ensures r.Some? ==> r.value < |s| && s[r.value] == x && x !in s[..r.value]
    ensures r.None? <==> x !in s
  {
    if |s| == 0 then None
    else if s[0] == x then Some(0)
    else match IndexOf(s[1..], x)
      case None => None
      case Some(i) => Some(i + 1)
  }

  /** Index of the last occurrence of `x` in `s`. */
  function LastIndexOf<T(==)>(s: seq<T>, x: T): (r: Option<nat>)
    ensures r.Some? ==> r.value < |s| && s[r.value] == x && x !in s[r.value + 1..]
    ensures r.None? <==> x !in s
  {
    if |s| == 0 then None
    else if s[|s| - 1] == x then Some(|s| - 1)
    else LastIndexOf(s[..|s| - 1], x)
  }

  /** An occurrence with none before it is the one `IndexOf` finds. */
  lemma {:induction false} IndexOfAt<T>(s: seq<T>, x: T, i: nat)
    requires i < |s| && s[i] == x && x !in s[..i]
    ensures IndexOf(s, x) == Some(i)
    decreases i
  {
    if i > 0 {
      assert s[0] != x by { assert s[0] == s[..i][0]; }
      assert s[1..][..i - 1] == s[..i][1..];
      IndexOfAt(s[1..], x, i - 1);
    }
  }

  /** An occurrence with none after it is the one `LastIndexOf` finds. */
  lemma {:induction false} LastIndexOfAt<T>(s: seq<T>, x: T, i: nat)
    requires i < |s| && s[i] == x && x !in s[i + 1..]
    ensures LastIndexOf(s, x) == Some(i)
    decreases |s|
  {
    if i < |s| - 1 {
      assert s[|s| - 1] != x by { assert s[|s| - 1] == s[i + 1..][|s| - 2 - i]; }
      assert s[..|s| - 1][i + 1..] == s[i + 1..|s| - 1];
      LastIndexOfAt(s[..|s| - 1], x, i);
    }
  }

  /** The parts, in order, with `sep` between consecutive parts. */
  function Join<T>(parts: seq<seq<T>>, sep: seq<T>): seq<T>
  {
    if |parts| == 0 then []
    else if |parts| == 1 then parts[0]
    else parts[0] + sep + Join(parts[1..], sep)
  }

  /** The maximal runs of `s` that do not contain `sep`, in order. */
  function Split<T(==)>(s: seq<T>, sep: T): (r: seq<seq<T>>)
    ensures |r| >= 1
    ensures forall k :: 0 <= k < |r| ==> sep !in r[k]
    decreases |s|
  {
    match IndexOf(s, sep)
    case None => [s]
    case Some(i) => [s[..i]] + Split(s[i + 1..], sep)
  }

  /** Appending one more part to a join adds one separator and the part. */
  lemma {:induction false} JoinSnoc<T>(parts: seq<seq<T>>, p: seq<T>, sep: seq<T>)
    requires |parts| >= 1
    ensures Join(parts + [p], sep) == Join(parts, sep) + sep + p
    decreases |parts|
  {
    if |parts| == 1 {
      assert parts + [p] == [parts[0], p];
      assert ([parts[0], p])[1..] == [p];
    } else {
      assert (parts + [p])[1..] == parts[1..] + [p];
      JoinSnoc(parts[1..], p, sep);
    }
  }

  /** When every part has length `m`, a join of `n >= 1` parts has `m*n + (n-1)*|sep|` elements. */
  lemma {:induction false} JoinLengthUniform<T>(parts: seq<seq<T>>, sep: seq<T>, m: nat)
    requires |parts| >= 1
    requires forall k :: 0 <= k < |parts| ==> |parts[k]| == m
    ensures |Join(parts, sep)| == m * |parts| + (|parts| - 1) * |sep|
    decreases |parts|
  {
    if |parts| > 1 {
      JoinLengthUniform(parts[1..], sep, m);
    }
  }

  /** Splitting and re-joining with the same separator gives back the input. */
  lemma {:induction false} JoinSplit<T>(s: seq<T>, sep: T)
    ensures Join(Split(s, sep), [sep]) == s
    decreases |s|
  {
    match IndexOf(s, sep)
    case None =>
    case Some(i) =>
      var rest := Split(s[i + 1..], sep);
      JoinSplit(s[i + 1..], sep);
      assert Split(s, sep) == [s[..i]] + rest;
      assert (([s[..i]] + rest)[1..]) == rest;
      assert s == s[..i] + [sep] + s[i + 1..];
  }

  /** Joining parts free of `sep` and splitting at `sep` gives back the parts. */
  lemma {:induction false} SplitJoin<T>(parts: seq<seq<T>>, sep: T)
    requires |parts| >= 1
    requires forall k :: 0 <= k < |parts| ==> sep !in parts[k]
    ensures Split(Join(parts, [sep]), sep) == parts
    decreases |parts|
  {
    if |parts| == 1 {
      assert IndexOf(parts[0], sep).None?;
    } else {
      var p := parts[0];
      var tail := Join(parts[1..], [sep]);
      var s := p + [sep] + tail;
      assert Join(parts, [sep]) == s;
      assert s[|p|] == sep;
      assert s[..|p|] == p;
      IndexOfAt(s, sep, |p|);
      assert s[|p| + 1..] == tail;
      SplitJoin(parts[1..], sep);
      assert Split(s, sep) == [p] + Split(tail, sep);
      assert parts == [p] + parts[1..];
    }
  }

  /** All parts one after the other, with nothing between them. */
  function Concat<T>(parts: seq<seq<T>>): seq<T>
    decreases |parts|
  {
    if |parts| == 0 then [] else parts[0] + Concat(parts[1..])
  }

  lemma {:induction false} ConcatAppend<T>(a: seq<seq<T>>, b: seq<seq<T>>)
    ensures Concat(a + b) == Concat(a) + Concat(b)
    decreases |a|
  {
    if |a| == 0 {
      assert a + b == b;
    } else {
      assert (a + b)[1..] == a[1..] + b;
      ConcatAppend(a[1..], b);
    }
  }

  /** A value that is not part of the separator occurs in a join exactly when it occurs in one of the parts. */
  lemma {:induction false} JoinMembers<T>(parts: seq<seq<T>>, sep: seq<T>, x: T)
    requires x !in sep
    ensures x in Join(parts, sep) <==> x in Concat(parts)
    decreases |parts|
  {
    if |parts| == 1 {
      assert Concat(parts) == parts[0] + [];
    } else if |parts| > 1 {
      JoinMembers(parts[1..], sep, x);
    }
  }
}

=== FILE: strings.dfy ===
/**
 * Text operations the scripts use: Python's `str.strip()` and
 * `str.strip(chars)`, prefix tests, ASCII lower-casing, and decimal
 * rendering of the 1-based list numbers.
 */
module Strings {

  /** Python's `str.isspace()` characters: exactly what `str.strip()` with no argument removes. */
  const PySpace: set<char> := {
    ' ', '\t', '\n', '\U{0B}', '\U{0C}', '\r',
    '\U{1C}', '\U{1D}', '\U{1E}', '\U{1F}', '\U{85}', '\U{A0}', '\U{1680}',
    '\U{2000}', '\U{2001}', '\U{2002}', '\U{2003}', '\U{2004}', '\U{2005}',
    '\U{2006}', '\U{2007}', '\U{2008}', '\U{2009}', '\U{200A}',
    '\U{2028}', '\U{2029}', '\U{202F}', '\U{205F}', '\U{3000}'
  }

  /** How many characters at the start of `s` are in `drop`. */
  function LeadCount(s: string, drop: set<char>): (n: nat)
    ensures n <= |s|
    ensures forall k :: 0 <= k < n ==> s[k] in drop
    ensures n < |s| ==> s[n] !in drop
    decreases |s|
  {
    if |s| > 0 && s[0] in drop then 1 + LeadCount(s[1..], drop) else 0
  }

  /** How many characters at the end of `s` are in `drop`. */
  function TrailCount(s: string, drop: set<char>): (n: nat)
    ensures n <= |s|
    ensures forall k :: |s| - n <= k < |s| ==> s[k] in drop
    ensures n < |s| ==> s[|s| - 1 - n] !in drop
    decreases |s|
  {
    if |s| > 0 && s[|s| - 1] in drop then 1 + TrailCount(s[..|s| - 1], drop) else 0
  }

  /** `s` with its leading characters from `drop` removed: a suffix of `s`. */
  function TrimStart(s: string, drop: set<char>): (r: string)
    ensures r == [] || r[0] !in drop
  {
    s[LeadCount(s, drop)..]
  }

  /** `s` with its trailing characters from `drop` removed: a prefix of `s`. */
  function TrimEnd(s: string, drop: set<char>): (r: string)
    ensures r == [] || r[|r| - 1] !in drop
  {
    s[..|s| - TrailCount(s, drop)]
  }

  /** Neither end of `s` is a character of `drop`. */
  predicate Trimmed(s: string, drop: set<char>) {
    s == [] || (s[0] !in drop && s[|s| - 1] !in drop)
  }

  /** `s` with the characters from `drop` removed at both ends; `TrimFrame` says where it sits in `s`. */
  function Trim(s: string, drop: set<char>): (r: string)
    ensures |r| <= |s|
    ensures Trimmed(r, drop)
  {
    TrimEnd(TrimStart(s, drop), drop)
  }

  /**
   * A trimmed string is the contiguous middle of `s`, outside of which every
   * character of `s` is in `drop`.
   */
  lemma TrimFrame(s: string, drop: set<char>)
    ensures var r := Trim(s, drop); var i := |s| - |TrimStart(s, drop)|;
      && i + |r| <= |s|
      && r == s[i..i + |r|]
      && (forall k :: 0 <= k < i ==> s[k] in drop)
      && (forall k :: i + |r| <= k < |s| ==> s[k] in drop)
  {
    var t := TrimStart(s, drop);
    var r := TrimEnd(t, drop);
    var i := |s| - |t|;
    assert t == s[i..];
    forall k | i + |r| <= k < |s|
      ensures s[k] in drop
    {
      assert s[k] == t[k - i];
    }
  }

  /** Python's `s.strip()`. */
  function Strip(s: string): string {
    Trim(s, PySpace)
  }

  /** Python's `s.strip(c)` for a one-character argument. */
  function StripChar(s: string, c: char): string {
    Trim(s, {c})
  }

  /** A string that starts and ends with kept characters is left as it is. */
  lemma TrimUnchanged(s: string, drop: set<char>)
    requires Trimmed(s, drop)
    ensures Trim(s, drop) == s
  {
    if s != [] {
      assert LeadCount(s, drop) == 0;
      assert s[0..] == s;
      assert TrailCount(s, drop) == 0;
      assert s[..|s|] == s;
    }
  }

  /** Trimming is idempotent: a trimmed string has nothing left to trim. */
  lemma {:induction false} TrimIdempotent(s: string, drop: set<char>)
    ensures Trim(Trim(s, drop), drop) == Trim(s, drop)
  {
    var r := Trim(s, drop);
    if r != [] {
      assert TrimStart(r, drop) == r;
      assert TrimEnd(r, drop) == r;
    }
  }

  /** `LeadCount` is the length of the run of `drop` characters that starts `s`. */
  lemma {:induction false} LeadCountIs(s: string, n: nat, drop: set<char>)
    requires n <= |s|
    requires forall k :: 0 <= k < n ==> s[k] in drop
    requires n < |s| ==> s[n] !in drop
    ensures LeadCount(s, drop) == n
    decreases n
  {
    if n > 0 {
      LeadCountIs(s[1..], n - 1, drop);
    }
  }

  /** `TrailCount` is the length of the run of `drop` characters that ends `s`. */
  lemma {:induction false} TrailCountIs(s: string, n: nat, drop: set<char>)
    requires n <= |s|
    requires forall k :: |s| - n <= k < |s| ==> s[k] in drop
    requires n < |s| ==> s[|s| - 1 - n] !in drop
    ensures TrailCount(s, drop) == n
    decreases n
  {
    if n > 0 {
      var t := s[..|s| - 1];
      forall k | |t| - (n - 1) <= k < |t| ensures t[k] in drop {
        assert t[k] == s[k];
      }
      TrailCountIs(t, n - 1, drop);
    }
  }

  /** When only `drop` characters lie outside `s[i..j]` and it starts and ends with kept ones, trimming gives `s[i..j]`. */
  lemma TrimIs(s: string, i: nat, j: nat, drop: set<char>)
    requires i <= j <= |s|
    requires forall k :: 0 <= k < i ==> s[k] in drop
    requires forall k :: j <= k < |s| ==> s[k] in drop
    requires i < j ==> s[i] !in drop && s[j - 1] !in drop
    ensures Trim(s, drop) == s[i..j]
  {
    if i == j {
      LeadCountIs(s, |s|, drop);
    } else {
      LeadCountIs(s, i, drop);
      var t := s[i..];
      forall k | |t| - (|s| - j) <= k < |t| ensures t[k] in drop {
        assert t[k] == s[i + k];
      }
      assert t[|t| - 1 - (|s| - j)] == s[j - 1];
      TrailCountIs(t, |s| - j, drop);
      assert t[..j - i] == s[i..j];
    }
  }

  /** Trimming `k + [c] + v` for a kept `c`, given the lengths `i` of the leading `drop` run of `k` and `m` of the trailing one of `v`. */
  lemma TrimAroundAt(k: string, c: char, v: string, i: nat, m: nat, drop: set<char>)
    requires c !in drop && i <= |k| && m <= |v|
    requires forall x :: 0 <= x < i ==> k[x] in drop
    requires i < |k| ==> k[i] !in drop
    requires forall x :: |v| - m <= x < |v| ==> v[x] in drop
    requires m < |v| ==> v[|v| - 1 - m] !in drop
    ensures Trim(k + [c] + v, drop) == k[i..|k|] + [c] + v[0..|v| - m]
  {
    var l := k + [c] + v;
    var j := |k| + 1 + |v| - m;
    forall x | 0 <= x < i ensures l[x] in drop {
      assert l[x] == k[x];
    }
    forall x | j <= x < |l| ensures l[x] in drop {
      assert l[x] == v[x - |k| - 1];
    }
    if i < |k| {
      assert l[i] == k[i];
    } else {
      assert l[i] == c;
    }
    if m < |v| {
      assert l[j - 1] == v[|v| - 1 - m];
    } else {
      assert l[j - 1] == c;
    }
    TrimIs(l, i, j, drop);
    ConcatSlice(k, c, v, i, m);
  }

  lemma ConcatSlice(k: string, c: char, v: string, i: nat, m: nat)
    requires i <= |k| && m <= |v|
    ensures (k + [c] + v)[i..|k| + 1 + |v| - m] == k[i..|k|] + [c] + v[0..|v| - m]
  {
    var l := k + [c] + v;
    var r := k[i..|k|] + [c] + v[0..|v| - m];
    assert forall x :: 0 <= x < |r| ==> l[i..|k| + 1 + |v| - m][x] == r[x];
  }

  /** Trimming `k + [c] + v` around a kept `c` trims only the start of `k` and the end of `v`. */
  lemma TrimConcat(k: string, c: char, v: string, drop: set<char>)
    requires c !in drop
    ensures Trim(k + [c] + v, drop) == TrimStart(k, drop) + [c] + TrimEnd(v, drop)
  {
    var i := LeadCount(k, drop);
    var m := TrailCount(v, drop);
    TrimAroundAt(k, c, v, i, m, drop);
    assert k[i..|k|] == k[i..];
    assert v[0..|v| - m] == v[..|v| - m];
  }

  /** `TrimStart` only removes characters, so a character absent from `k` is absent from the result. */
  lemma TrimStartWithout(k: string, c: char, drop: set<char>)
    requires c !in k
    ensures c !in TrimStart(k, drop)
  {
    var i := LeadCount(k, drop);
    forall x | 0 <= x < |k| - i ensures k[i..][x] != c {
      assert k[i..][x] == k[i + x];
    }
  }

  /** Trimming what `TrimStart` left gives what trimming the whole does. */
  lemma TrimOfTrimStart(k: string, drop: set<char>)
    ensures Trim(TrimStart(k, drop), drop) == Trim(k, drop)
  {
    var a := TrimStart(k, drop);
    LeadCountIs(a, 0, drop);
    assert a[0..] == a;
  }

  /** Trimming what `TrimEnd` left gives what trimming the whole does. */
  lemma TrimOfTrimEnd(v: string, drop: set<char>)
    ensures Trim(TrimEnd(v, drop), drop) == Trim(v, drop)
  {
    var j := |v| - TrailCount(v, drop);
    var u := v[..j];
    if j == 0 {
      TrimIs(v, 0, 0, drop);
    } else {
      var l := LeadCount(v, drop);
      TrimIs(v, l, j, drop);
      forall k | 0 <= k < l ensures u[k] in drop {
        assert u[k] == v[k];
      }
      assert u[l] == v[l] && u[j - 1] == v[j - 1];
      TrimIs(u, l, j, drop);
      assert u[l..j] == v[l..j];
    }
  }

  /** A text that starts with a kept character keeps it first when trimmed. */
  lemma TrimKeepsFirst(a: string, drop: set<char>)
    requires a != [] && a[0] !in drop
    ensures Trim(a, drop) != [] && Trim(a, drop)[0] == a[0]
  {
    LeadCountIs(a, 0, drop);
    assert TrimStart(a, drop) == a;
  }

  /** Python's `s.startswith(p)`. */
  predicate StartsWith(s: string, p: string) {
    p <= s
  }

  /** ASCII upper-case letters mapped to lower case; every other character kept. */
  function AsciiLower(s: string): (r: string)
    ensures |r| == |s|
    ensures forall k :: 0 <= k < |s| ==> r[k] == LowerChar(s[k])
  {
    if |s| == 0 then [] else [LowerChar(s[0])] + AsciiLower(s[1..])
  }

  function LowerChar(c: char): char {
    if 'A' <= c <= 'Z' then (c as int - 'A' as int + 'a' as int) as char else c
  }

  predicate IsDigit(c: char) {
    '0' <= c <= '9'
  }

  function DigitChar(d: nat): char
    requires d < 10
  {
    ('0' as int + d) as char
  }

  /** Python's `str(n)` / `f"{n}"` for a non-negative integer: its decimal digits, no leading zero. */
  function NatToString(n: nat): (r: string)
    ensures |r| >= 1
    ensures forall k :: 0 <= k < |r| ==> IsDigit(r[k])
    ensures n > 0 ==> r[0] != '0'
  {
    if n < 10 then [DigitChar(n)] else NatToString(n / 10) + [DigitChar(n % 10)]
  }

  /** The value of a string of decimal digits. */
  function DecimalValue(s: string): nat
    requires forall k :: 0 <= k < |s| ==> IsDigit(s[k])
  {
    if |s| == 0 then 0
    else
      var last := s[|s| - 1];
      assert IsDigit(last);
      10 * DecimalValue(s[..|s| - 1]) + (last as int - '0' as int)
  }

  /** Reading back the rendered number gives the number: distinct list positions get distinct labels. */
  lemma {:induction false} NatToStringRoundTrip(n: nat)
    ensures DecimalValue(NatToString(n)) == n
    decreases n
  {
    if n >= 10 {
      var r := NatToString(n);
      NatToStringRoundTrip(n / 10);
      assert r[..|r| - 1] == NatToString(n / 10);
    }
  }
}

=== FILE: work_report.dfy ===
/**
 * scripts/feishu/feishu_send_work_report.py: `send_work_report`, which lays
 * out the four sections of a daily report (done, in progress, blocked,
 * tomorrow) as markdown blocks separated by `hr`, skipping empty sections,
 * and posts the card with the credentials check of tools/feishu_send_card.py.
 */
module WorkReport {
  import opened Wrappers
  import opened Seqs
  import opened Strings
  import opened Placeholders
  import opened EnvFile
  import opened CardLayout
  import opened FeishuCard

  /** The four sections of a report, in the order they are laid out. */
  datatype Section = Done | InProgress | Blocked | Tomorrow {
    /** The key of the section's list in the report file. */
    function Key(): string {
      match this
      case Done => "done"
      case InProgress => "in_progress"
      case Blocked => "blocked"
      case Tomorrow => "tomorrow"
    }

    /** The section's place in the layout order. */
    function Index(): nat {
      match this
      case Done => 0
      case InProgress => 1
      case Blocked => 2
      case Tomorrow => 3
    }

    function Title(): string {
      match this
      case Done => "✅ 今日完成"
      case InProgress => "⏳ 进行中"
      case Blocked => "🚫 阻塞项"
      case Tomorrow => "📋 明日计划"
    }
  }

  const Sections: seq<Section> := [Done, InProgress, Blocked, Tomorrow]

  /** Sections listed strictly in layout order, so each at most once. */
  predicate InOrder(ss: seq<Section>) {
    forall i, j :: 0 <= i < j < |ss| ==> ss[i].Index() < ss[j].Index()
  }

  /** The report lays its sections out in layout order. */
  lemma SectionsInOrder()
    ensures InOrder(Sections)
  {
  }

  const ReportColor := "purple"

  /** The header title is this text followed by the date. */
  const TitlePrefix := "🦞 龙虾哥工作日报 | "

  /** The report file: a list of item texts per key. */
  type Report = map<string, seq<string>>

  /** `data.get(key, [])`. */
  function ItemsOf(data: Report, s: Section): seq<string> {
    if s.Key() in data then data[s.Key()] else []
  }

  /** The list style test: a title starting with ✅ or 📋 is numbered, and only done and tomorrow have one. */
  function Numbered(s: Section): (r: bool)
    ensures r <==> s == Done || s == Tomorrow
  {
    TitleMark(s);
    StartsWith(s.Title(), "✅") || StartsWith(s.Title(), "📋")
  }

  /** Each title starts with its own symbol. */
  lemma TitleMark(s: Section)
    ensures s.Title() != []
    ensures s.Title()[0] == match s
      case Done => '✅'
      case InProgress => '⏳'
      case Blocked => '🚫'
      case Tomorrow => '📋'
  {
  }

  /** The marker in front of the item at 0-based position `i`: `i+1. ` when numbered, `- ` otherwise. */
  function Marker(numbered: bool, i: nat): (r: string)
    ensures r != [] && '\n' !in r
    ensures r[0] == '-' || IsDigit(r[0])
  {
    if numbered then NatToString(i + 1) + ". " else "- "
  }

  /**
   * What a marker says: a bullet `- ` for an unnumbered list, and for a numbered one
   * the decimal digits of `i + 1`, without a leading zero, followed by `. `.
   */
  lemma MarkerMeaning(numbered: bool, i: nat)
    ensures !numbered ==> Marker(numbered, i) == "- "
    ensures numbered ==>
      var r := Marker(numbered, i);
      && |r| >= 3
      && r[|r| - 2..] == ". "
      && r[0] != '0'
      && (forall k :: 0 <= k < |r| - 2 ==> IsDigit(r[k]))
      && DecimalValue(r[..|r| - 2]) == i + 1
  {
    if numbered {
      var d := NatToString(i + 1);
      var r := Marker(numbered, i);
      assert r == d + ". ";
      assert r[..|r| - 2] == d;
      NatToStringRoundTrip(i + 1);
    }
  }

  function ListLines(numbered: bool, items: seq<string>): (r: seq<string>)
  {
    seq(|items|, i requires 0 <= i < |items| => Marker(numbered, i) + items[i])
  }

  /** A section's list as one markdown text, one marked item per line. */
  function ListMarkdown(numbered: bool, items: seq<string>): string {
    Join(ListLines(numbered, items), "\n")
  }

  /** The line of the item at position `i` without its marker. */
  function Unmark(numbered: bool, i: nat, line: string): string {
    var m := Marker(numbered, i);
    if StartsWith(line, m) then line[|m|..] else line
  }

  /** Reading a list back: one item per line, each line's marker dropped. */
  function ParseList(numbered: bool, md: string): seq<string> {
    var lines := Split(md, '\n');
    seq(|lines|, i requires 0 <= i < |lines| => Unmark(numbered, i, lines[i]))
  }

  /** A non-empty list of items without line breaks is read back from its markdown unchanged. */
  lemma ListRoundTrip(numbered: bool, items: seq<string>)
    requires items != []
    requires forall i :: 0 <= i < |items| ==> '\n' !in items[i]
    ensures ParseList(numbered, ListMarkdown(numbered, items)) == items
  {
    var lines := ListLines(numbered, items);
    forall k | 0 <= k < |lines| ensures '\n' !in lines[k] {
      assert lines[k] == Marker(numbered, k) + items[k];
    }
    SplitJoin(lines, '\n');
    forall i | 0 <= i < |items| ensures Unmark(numbered, i, lines[i]) == items[i] {
      var m := Marker(numbered, i);
      assert lines[i] == m + items[i];
      assert lines[i][|m|..] == items[i];
    }
  }

  /** The bold title block of a section. */
  function Heading(s: Section): Element {
    Markdown("**" + s.Title() + "**")
  }

  /** The two blocks of a section: its bold title, then its list. */
  function SectionBlocks(data: Report, s: Section): seq<Element> {
    [Heading(s), Markdown(ListMarkdown(Numbered(s), ItemsOf(data, s)))]
  }

  /** The sections of `ss` that have items, in order. */
  function Shown(data: Report, ss: seq<Section>): seq<Section>
    decreases |ss|
  {
    if |ss| == 0 then []
    else (if ItemsOf(data, ss[0]) == [] then [] else [ss[0]]) + Shown(data, ss[1..])
  }

  /** A section is shown exactly when it is one of `ss` and has items. */
  lemma {:induction false} ShownMembers(data: Report, ss: seq<Section>)
    ensures |Shown(data, ss)| <= |ss|
    ensures forall s :: s in Shown(data, ss) <==> s in ss && ItemsOf(data, s) != []
    decreases |ss|
  {
    if |ss| > 0 {
      ShownMembers(data, ss[1..]);
      assert ss == [ss[0]] + ss[1..];
    }
  }

  /** Dropping the empty sections keeps the others in the order they were listed. */
  lemma {:induction false} ShownInOrder(data: Report, ss: seq<Section>)
    requires InOrder(ss)
    ensures InOrder(Shown(data, ss))
    decreases |ss|
  {
    if |ss| > 0 {
      var rest := ss[1..];
      TailInOrder(ss);
      ShownInOrder(data, rest);
      ShownAfter(data, ss);
      if ItemsOf(data, ss[0]) != [] {
        ConsInOrder(ss[0], Shown(data, rest));
      }
    }
  }

  lemma TailInOrder(ss: seq<Section>)
    requires InOrder(ss) && ss != []
    ensures InOrder(ss[1..])
  {
    var rest := ss[1..];
    forall i, j | 0 <= i < j < |rest| ensures rest[i].Index() < rest[j].Index() {
      assert rest[i] == ss[i + 1] && rest[j] == ss[j + 1];
    }
  }

  /** Every section shown from the tail comes after the head in layout order. */
  lemma ShownAfter(data: Report, ss: seq<Section>)
    requires InOrder(ss) && ss != []
    ensures forall t :: t in Shown(data, ss[1..]) ==> ss[0].Index() < t.Index()
  {
    var rest := ss[1..];
    ShownMembers(data, rest);
    forall t | t in Shown(data, rest) ensures ss[0].Index() < t.Index() {
      var j :| 0 <= j < |rest| && rest[j] == t;
      assert ss[j + 1] == t;
    }
  }

  lemma ConsInOrder(a: Section, tail: seq<Section>)
    requires InOrder(tail)
    requires forall t :: t in tail ==> a.Index() < t.Index()
    ensures InOrder([a] + tail)
  {
    var sh := [a] + tail;
    forall i, j | 0 <= i < j < |sh| ensures sh[i].Index() < sh[j].Index() {
      assert sh[j] == tail[j - 1];
      if i > 0 {
        assert sh[i] == tail[i - 1];
      }
    }
  }

  /** The group a section contributes: none when it has no items, else its blocks. */
  function GroupOf(data: Report, s: Section): seq<seq<Element>> {
    if ItemsOf(data, s) == [] then [] else [SectionBlocks(data, s)]
  }

  /** One group of blocks per section of `ss` that has items. */
  function GroupsOf(data: Report, ss: seq<Section>): seq<seq<Element>>
    decreases |ss|
  {
    if |ss| == 0 then [] else GroupOf(data, ss[0]) + GroupsOf(data, ss[1..])
  }

  /** The i-th group is the blocks of the i-th section that has items: a title and a list. */
  lemma {:induction false} GroupsAreShownBlocks(data: Report, ss: seq<Section>)
    ensures |GroupsOf(data, ss)| == |Shown(data, ss)|
    ensures forall i :: 0 <= i < |GroupsOf(data, ss)| ==> GroupsOf(data, ss)[i] == SectionBlocks(data, Shown(data, ss)[i])
    decreases |ss|
  {
    if |ss| > 0 {
      GroupsAreShownBlocks(data, ss[1..]);
    }
  }

  /** One more section adds its group at the end when it has items, and nothing otherwise. */
  lemma {:induction false} GroupsOfSnoc(data: Report, ss: seq<Section>, s: Section)
    ensures GroupsOf(data, ss + [s]) == GroupsOf(data, ss) + GroupOf(data, s)
    decreases |ss|
  {
    if |ss| == 0 {
      assert ss + [s] == [s];
      assert GroupsOf(data, [s]) == GroupOf(data, s) + GroupsOf(data, []);
    } else {
      var t := ss[0];
      assert (ss + [s])[0] == t;
      assert (ss + [s])[1..] == ss[1..] + [s];
      GroupsOfSnoc(data, ss[1..], s);
      calc {
        GroupsOf(data, ss + [s]);
        GroupOf(data, t) + GroupsOf(data, ss[1..] + [s]);
        GroupOf(data, t) + (GroupsOf(data, ss[1..]) + GroupOf(data, s));
        GroupsOf(data, ss) + GroupOf(data, s);
      }
    }
  }

  /**
   * The card's elements: the groups of the sections that have items, with one
   * `hr` between consecutive groups; with k such sections there are 3k-1
   * elements and k-1 of them are `hr`, and splitting at `hr` gives the groups.
   */
  function ReportElements(data: Report): (es: seq<Element>)
    ensures var k := |Shown(data, Sections)|;
      && (k == 0 ==> es == [])
      && (k > 0 ==> |es| == 3 * k - 1 && HrCount(es) == k - 1)
    ensures NoStrayHr(es)
    ensures Shown(data, Sections) != [] ==> Split(es, Hr) == GroupsOf(data, Sections)
  {
    ReportShape(data);
    Separated(GroupsOf(data, Sections))
  }

  lemma ReportShape(data: Report)
    ensures |GroupsOf(data, Sections)| == |Shown(data, Sections)|
    ensures var gs := GroupsOf(data, Sections); var es := Separated(gs);
      && (|gs| > 0 ==> |es| == 3 * |gs| - 1 && HrCount(es) == |gs| - 1)
      && NoStrayHr(es)
      && (|gs| > 0 ==> Split(es, Hr) == gs)
  {
    var gs := GroupsOf(data, Sections);
    GroupsAreShownBlocks(data, Sections);
    forall i | 0 <= i < |gs| ensures |gs[i]| == 2 && MarkdownOnly(gs[i]) {
      assert gs[i] == SectionBlocks(data, Shown(data, Sections)[i]);
    }
    SeparatedShape(gs);
    if |gs| > 0 {
      JoinLengthUniform(gs, [Hr], 2);
      SeparatedHrCount(gs);
    }
  }

  /** A section's title appears on the card exactly when the section has items. */
  lemma HeadingShown(data: Report, s: Section)
    ensures Heading(s) in ReportElements(data) <==> ItemsOf(data, s) != []
  {
    JoinMembers(GroupsOf(data, Sections), [Hr], Heading(s));
    HeadingInGroups(data, Sections, s);
  }

  lemma {:induction false} HeadingInGroups(data: Report, ss: seq<Section>, s: Section)
    ensures Heading(s) in Concat(GroupsOf(data, ss)) <==> s in ss && ItemsOf(data, s) != []
    decreases |ss|
  {
    if |ss| > 0 {
      var t := ss[0];
      var head: seq<seq<Element>> := if ItemsOf(data, t) == [] then [] else [SectionBlocks(data, t)];
      ConcatAppend(head, GroupsOf(data, ss[1..]));
      HeadingInGroups(data, ss[1..], s);
      assert ss == [t] + ss[1..];
      if ItemsOf(data, t) != [] {
        HeadingInBlocks(data, s, t);
        assert Concat(head) == SectionBlocks(data, t) + [];
      }
    }
  }

  /** The blocks of section `t` hold the title of `s` only when `s` is `t`. */
  lemma HeadingInBlocks(data: Report, s: Section, t: Section)
    requires ItemsOf(data, t) != []
    ensures Heading(s) in SectionBlocks(data, t) <==> s == t
  {
    var lines := ListLines(Numbered(t), ItemsOf(data, t));
    var md := ListMarkdown(Numbered(t), ItemsOf(data, t));
    assert lines[0] == Marker(Numbered(t), 0) + ItemsOf(data, t)[0];
    assert md[0] == lines[0][0];
    assert ("**" + s.Title() + "**")[0] == '*';
    if Heading(s) == Heading(t) {
      assert ("**" + s.Title() + "**")[2] == s.Title()[0];
      assert ("**" + t.Title() + "**")[2] == t.Title()[0];
    }
  }

  /**
   * The loop of `send_work_report`: walk the sections in order, skip the
   * empty ones, put an `hr` before every section but the first shown.
   */
  method BuildReportElements(data: Report) returns (elements: seq<Element>)
    ensures elements == ReportElements(data)
  {
    elements := LayOutSections(data, Sections);
  }

  method LayOutSections(data: Report, ss: seq<Section>) returns (elements: seq<Element>)
    ensures elements == Separated(GroupsOf(data, ss))
  {
    elements := [];
    var first := true;
    var i := 0;
    while i < |ss|
      invariant 0 <= i <= |ss|
      invariant elements == Separated(GroupsOf(data, ss[..i]))
      invariant first <==> GroupsOf(data, ss[..i]) == []
    {
      var s := ss[i];
      SectionStep(data, ss, i);
      if ItemsOf(data, s) != [] {
        elements := AppendSection(data, elements, first, s);
        first := false;
      }
      i := i + 1;
    }
    assert ss[..|ss|] == ss;
  }

  /** The body of the loop for a section with items: an `hr` unless it is the first shown, its title, its list. */
  method AppendSection(data: Report, elements: seq<Element>, first: bool, s: Section) returns (es: seq<Element>)
    ensures es == (if first then elements else elements + [Hr]) + SectionBlocks(data, s)
  {
    es := elements;
    if !first {
      es := es + [Hr];
    }
    ghost var mid := es;
    es := es + [Heading(s)];
    es := es + [Markdown(ListMarkdown(Numbered(s), ItemsOf(data, s)))];
    assert es == mid + SectionBlocks(data, s);
  }

  /** What the section at position `i` does to the separated groups: nothing when it is empty, else an `hr` if needed and its blocks. */
  lemma SectionStep(data: Report, ss: seq<Section>, i: nat)
    requires i < |ss|
    ensures var before := GroupsOf(data, ss[..i]); var after := GroupsOf(data, ss[..i + 1]); var s := ss[i];
      && (ItemsOf(data, s) == [] ==> after == before)
      && (ItemsOf(data, s) != [] && before == [] ==> Separated(after) == SectionBlocks(data, s))
      && (ItemsOf(data, s) != [] && before != [] ==> Separated(after) == Separated(before) + [Hr] + SectionBlocks(data, s))
      && (after == [] <==> before == [] && ItemsOf(data, s) == [])
  {
    assert ss[..i + 1] == ss[..i] + [ss[i]];
    SnocStep(data, ss[..i], ss[i]);
  }

  /** `SectionStep` for the sections `pre` followed by `s`. */
  lemma SnocStep(data: Report, pre: seq<Section>, s: Section)
    ensures var before := GroupsOf(data, pre); var after := GroupsOf(data, pre + [s]);
      && (ItemsOf(data, s) == [] ==> after == before)
      && (ItemsOf(data, s) != [] && before == [] ==> Separated(after) == SectionBlocks(data, s))
      && (ItemsOf(data, s) != [] && before != [] ==> Separated(after) == Separated(before) + [Hr] + SectionBlocks(data, s))
      && (after == [] <==> before == [] && ItemsOf(data, s) == [])
  {
    var before := GroupsOf(data, pre);
    GroupsOfSnoc(data, pre, s);
    if ItemsOf(data, s) == [] {
      assert before + [] == before;
    } else if before == [] {
      assert before + [SectionBlocks(data, s)] == [SectionBlocks(data, s)];
    } else {
      JoinSnoc(before, SectionBlocks(data, s), [Hr]);
    }
  }

  /**
   * The message `send_work_report` posts: the recipient is `to`, else
   * `FEISHU_DEFAULT_TO` as the environment holds it before `get_token` reads
   * the `.env` file, else the fixed id; the credentials must be present.
   */
  function PrepareReport(date: string, data: Report, to: Option<string>, color: Option<string>,
                         env: Env, envLines: seq<string>): (r: Result<CardMessage, CardError>)
    ensures r.Err? <==> CardCredentials(env, envLines).Err?
    ensures r.Err? ==> r.error == MissingCredentials
    ensures r.Ok? ==>
      && r.value.card.header.title == TitlePrefix + date
      && (color.Some? ==> r.value.card.header.template == color.value)
      && (color.None? ==> r.value.card.header.template == "purple")
      && r.value.card.elements == ReportElements(data)
      && r.value.receiveId == DefaultRecipient(to, env)
      && r.value.receiveIdType == "open_id"
      && r.value.msgType == "interactive"
  {
    var recipient := DefaultRecipient(to, env);
    match CardCredentials(env, envLines)
    case Err(e) => Err(e)
    case Ok(_) => Ok(CardMessage(recipient, "open_id", "interactive", Card(Header(TitlePrefix + date, ColorOr(color, ReportColor)), ReportElements(data))))
  }

  /** The numbered list of two items. */
  lemma NumberedPairExample()
    ensures ListMarkdown(true, ["a", "b"]) == "1. a\n2. b"
  {
    assert NatToString(1) == "1" && NatToString(2) == "2";
    var lines := ListLines(true, ["a", "b"]);
    assert Marker(true, 0) == "1. " && Marker(true, 1) == "2. ";
    assert |lines| == 2;
    assert lines[0] == Marker(true, 0) + "a" && lines[1] == Marker(true, 1) + "b";
    assert "1. " + "a" == "1. a" && "2. " + "b" == "2. b";
    assert lines == ["1. a", "2. b"];
    assert Join(lines, "\n") == "1. a" + "\n" + Join(["2. b"], "\n");
  }

  /** A report with two things done and nothing else: one title block and a numbered list, no `hr`. */
  lemma DoneOnly(data: Report)
    requires ItemsOf(data, Done) == ["a", "b"]
    requires ItemsOf(data, InProgress) == [] && ItemsOf(data, Blocked) == [] && ItemsOf(data, Tomorrow) == []
    ensures ReportElements(data) == [Markdown("**✅ 今日完成**"), Markdown("1. a\n2. b")]
  {
    assert GroupsOf(data, Sections[3..]) == [];
    assert GroupsOf(data, Sections[2..]) == [];
    assert GroupsOf(data, Sections[1..]) == [];
    assert GroupsOf(data, Sections) == [SectionBlocks(data, Done)];
    DoneBlocks(data);
  }

  lemma DoneBlocks(data: Report)
    requires ItemsOf(data, Done) == ["a", "b"]
    ensures SectionBlocks(data, Done) == [Markdown("**✅ 今日完成**"), Markdown("1. a\n2. b")]
  {
    NumberedPairExample();
    assert Numbered(Done);
    assert "**" + "✅ 今日完成" + "**" == "**✅ 今日完成**";
  }

  /** The report file `{"done": ["a", "b"], "blocked": []}`. */
  lemma DoneOnlyExample()
    ensures ReportElements(map["done" := ["a", "b"], "blocked" := []])
         == [Markdown("**✅ 今日完成**"), Markdown("1. a\n2. b")]
  {
    var data: Report := map["done" := ["a", "b"], "blocked" := []];
    assert "in_progress" !in data && "tomorrow" !in data;
    DoneOnly(data);
  }
}

=== FILE: wrappers.dfy ===
/** Failure-carrying datatypes shared by every module of the model. */
module Wrappers {

  /** An optional value: Python's `None` / JavaScript's `undefined`, or a value. */
  datatype Option<+T> = None | Some(value: T)

  /** The outcome of an operation that either returns a value or raises. */
  datatype Result<+T, +E> = Ok(value: T) | Err(error: E)
}
